=== FILE: README.md ===
# Search and bit-vector utilities of Latplan, modelled in Dafny

Latplan generates planning problem instances by exploring the state space of
a puzzle from an initial state. This project models the search and sampling
core that the instance generators rely on, and proves what each piece
computes.

- **Uniform-cost search with reopening** (`dijkstra` in `latplan/util/search.py`).
  The open list is a priority queue of `(g, state)` entries. The close table
  maps each state to its cost, its open flag, its reopen flag and its parent.
  A popped entry whose state is already closed is skipped. The search stops
  at the first open pop beyond `length`. It yields the states at cost
  `length`, or also those below it under `include_nonleaf`.
  Modules: `UniformCost`, with `Frontier` and `StateSpace`.
- **Uniform-cost search without reopening** (`dijkstra` in
  `problem-instances/generate-dijkstra.py`). It has no stale check. Closed
  successors are skipped, and open ones are lowered when a cheaper cost
  appears. Module: `UniformCostNoReopen`.
- **Random walk** (`random_walk` and `random_walk_rec` in `latplan/util/search.py`).
  A depth-first search for a simple path of exactly `length` steps. At each
  state it tries the successors circularly from a random index, and it
  restarts the whole walk when it backtracks out of the root. Module:
  `RandomWalk`.
- **Lights-Out sampler** (`lightsout_special`). It applies every ascending
  combination of `length` action indices to the initial state. Module:
  `LightsOut`, with `Combinatorics`.
- **Reservoir sampling** (`reservoir_sampling`), algorithm R over a
  generator. Module: `Reservoir`.
- **Bit-vector helpers** of `strips.py`:
  - `flip`: XOR through numpy's `packbits`/`unpackbits`.
  - `flips`: the recursive enumeration of the vectors with exactly
    `diffbit` ones.
  - `all_flips`: the same vectors as the rows of a matrix, with the row
    count computed by a falling product and divisions.

  Modules: `BitVectors` and `PackedBits`.

States are `seq<int>`, the tuples the sources put in their dictionaries. The
successor function is a parameter `succ: State -> seq<State>`.

Both searches are specified against breadth-first layers:

- `Reach(init, succ, d)` is the set of states within `d` transitions.
- `AtDistance(init, succ, s, d)` says the breadth-first distance of `s` is
  exactly `d`.

With unit step costs and minimum extraction, the model proves the following:

- A popped open state is popped at its exact distance.
- The reopen branch never fires.
- The no-reopen variant never pops a stale entry, so its missing stale
  check never matters.
- Each search yields exactly the states the policy asks for, each once.

Random draws are parameters as well:

- The random walk's `numpy.random.randint(n)` calls become a function
  `draw(k, n) < n` of the call number `k`.
- The reservoir's `random.randrange(i)` calls become a sequence of draws.

## Model

| member | source | states |
|---|---|---|
| `PackedBits.XorRoundTrip` | strips.py:85-88 | Packing two byte-aligned rows, XOR-ing the bytes and unpacking gives the element-wise XOR of the rows. |
| `PackedBits.XorDigits` | strips.py:87-88 | XOR of two rows read as binary numerals, written back as digits, is the element-wise XOR. |
| `BitVectors.Flip` | strips.py:83-88 | `flip` on a row: same width as `bv1`, 0/1 entries, entry `i` is `bv1[i]` XOR `bv2[i]`; a shorter `bv2` in the same byte count reads as zero beyond its end. |
| `BitVectors.FlipTwice` | strips.py:83-88 | Flipping a 0/1 vector twice with the same mask restores it. |
| `BitVectors.Flips` | strips.py:90-101 | For `diffbit > 0` the yielded vectors are the indicator rows of `itertools.combinations(range(bitnum), diffbit)` in order; for `diffbit <= 0` only the all-zero vector. |
| `BitVectors.FlipsRecIsIndicators` | strips.py:92-100 | `rec(start, k, vec)` yields `vec` with ones set at each ascending `k`-combination of `[start, bitnum)`, in lexicographic order. |
| `BitVectors.FlipsLoopIsIndicators` | strips.py:94-98 | The `for i in range(start, bitnum)` loop yields the same rows as the combinations from `start` on. |
| `BitVectors.FlipsAreCombinations` | strips.py:90-101 | `flips(bitnum, k)` equals the indicator rows of `Combinations(bitnum, k)`. |
| `BitVectors.FlipsRows` | strips.py:90-101 | Every vector `flips` yields has width `bitnum`, 0/1 entries and exactly `diffbit` ones (for `diffbit >= 0`). |
| `BitVectors.FlipsCountAndOrder` | strips.py:90-101 | `flips` yields C(bitnum, k) vectors, no two alike, the indicator rows of the combinations in strictly increasing lexicographic order. |
| `BitVectors.FlipsEdgeCases` | strips.py:90-101 | `diffbit = 0` yields the single zero vector; `diffbit > bitnum` yields nothing. |
| `BitVectors.IndicatorInjective` | strips.py:95-96 | Two ascending combinations with the same indicator row are equal. |
| `BitVectors.AllFlips` | strips.py:103-115 | `all_flips` returns exactly the rows `flips` yields, in the same order, C(bitnum, diffbit) of them; a negative `diffbit` raises. |
| `BitVectors.RowCount` | strips.py:104-109 | The falling product divided by `1 .. diffbit` in turn is exact at every step and ends at C(bitnum, diffbit); a negative `diffbit` leaves both loops empty and the count 1. |
| `BitVectors.FillRows` | strips.py:111-114 | A zero matrix of `size` rows with ones written at the `i`-th combination in row `i`: row `i` is that combination's indicator row and any further rows stay zero; it fails exactly when there are more combinations than rows. |
| `Combinatorics.CombFromCount` | problem-instances/generate-dijkstra.py:98 | `itertools.combinations(range(n), k)` has C(n, k) elements. |
| `Combinatorics.CombFromComplete` | problem-instances/generate-dijkstra.py:98 | Every ascending `k`-combination of `range(n)` is enumerated. |
| `Combinatorics.CombFromSorted` | problem-instances/generate-dijkstra.py:98 | The combinations come in strictly increasing lexicographic order. |
| `LightsOut.RunPlans` | problem-instances/generate-dijkstra.py:98-103 | One item per plan, the state the plan reaches from the start; the generator stops with an error exactly at the first plan that indexes past a successor list. |
| `LightsOut.LightsOutSpecial` | problem-instances/generate-dijkstra.py:91-103 | Item `i` is the state reached by the `i`-th combination of `length` actions; C(len(init), length) items when nothing raises; when it raises, it does so at the first combination that indexes past a successor list; a negative `length` raises before any item. |
| `LightsOut.LightsOutNeverRaises` | problem-instances/generate-dijkstra.py:91-103 | When every state has at least `len(init_c)` successors, the sampler never raises and yields C(len(init_c), length) states. |
| `LightsOut.EveryPlanOnce` | problem-instances/generate-dijkstra.py:98-103 | Each ascending combination of `length` actions is the plan of exactly one position, and the item there is the state it reaches. |
| `Reservoir.ZipTake` | problem-instances/generate-dijkstra.py:110 | `zip(generator, range(limit))` takes the first `limit` elements and also consumes element `limit`. |
| `Reservoir.Replace` | problem-instances/generate-dijkstra.py:111-120 | After the loop, slot `s` holds the last later element whose draw was `s`, or its original element if no draw hit it. |
| `Reservoir.StepHasNoEffect` | problem-instances/generate-dijkstra.py:112-117 | The `step` bookkeeping never affects the reservoir. |
| `Reservoir.ReservoirSampling` | problem-instances/generate-dijkstra.py:105-122 | `limit=None` returns the whole input; otherwise `min(limit, n)` slots, slot `s` holding element `limit + 1 + u` for the last draw `u` equal to `s`, or element `s`. |
| `Reservoir.CounterLagsByOne` | problem-instances/generate-dijkstra.py:110-118 | The `t`-th element the loop sees is element `limit + 1 + t`. |
| `Reservoir.DroppedElementNeverSampled` | problem-instances/generate-dijkstra.py:110-120 | Element `limit` of an input of distinct elements is never in the result, whatever the draws. |
| `Reservoir.TwentyIsNeverSampled` | problem-instances/generate-dijkstra.py:105-122 | From `[10, 20, 30]` with `limit=1` the result is never `[20]`. |
| `Reservoir.ReservoirIntended` | problem-instances/generate-dijkstra.py:105-122 | Algorithm R without the lost element: slot `s` holds element `limit + u` for the last draw `u` equal to `s`, or element `s`. |
| `Reservoir.EveryElementEligible` | problem-instances/generate-dijkstra.py:105-122 | In the corrected sampler every input element is returned for some valid choice of draws. |
| `RandomWalk.WalkRec` | latplan/util/search.py:64-86 | A returned state ends a simple path of exactly `length` fresh steps extending the trace; `None` only when no such path exists and no dead end is in reach; the `randint(0)` error only when a state without successors ends a simple extension of the trace by fewer than `length` steps. Any result other than `None` comes from the first successor, counting circularly from the drawn index `first = randint(len(sucs))`, that does not yet rule out both a walk and a reachable dead end; a returned walk goes through that successor. |
| `RandomWalk.Try` | latplan/util/search.py:73-86 | The `while True` loop: a returned state ends a simple path of `length` steps; the `randint(0)` error only when a dead end lies on a simple extension by fewer than `length` steps; `None` only when every candidate from `first` on, taken circularly, starts no simple path and leads to no dead end within `length` steps; any other result comes from the first candidate from the `tried`-th on, counting circularly from `first`, that is not ruled out, and a returned walk goes through it. |
| `RandomWalk.ChoiceUnique` | latplan/util/search.py:70-86 | For a given draw `first`, at most one candidate is the first one, counting circularly, that is not ruled out. |
| `RandomWalk.Child` | latplan/util/search.py:74-79 | The candidate's attempt returns `None` exactly when the candidate is already on the trace or starts no simple path and leads to no dead end within `length` steps; a returned state ends a simple path of `length` steps through the candidate; an error from below means a dead end within `length` steps of the trace. |
| `RandomWalk.BacktrackCoversAll` | latplan/util/search.py:80-84 | Returning to `first` means every successor was tried, so no simple extension exists and no dead end is in reach. |
| `RandomWalk.Walk` | latplan/util/search.py:54-62 | The restart loop only ever returns the end of a simple path of `length` steps from the start, and crashes only when a state without successors ends a simple path of fewer than `length` steps from the start; it runs out of fuel only when neither a path nor such a dead end exists. |
| `RandomWalk.RandomWalkRun` | latplan/util/search.py:54-62 | `random_walk` returns the end of a simple path of exactly `length` steps, or crashes only when a state without successors ends a simple path of fewer than `length` steps from the start; it keeps looping only when neither exists. |
| `RandomWalk.ZeroLength` | latplan/util/search.py:66-67 | With `length = 0` the walk returns the initial state. |
| `RandomWalk.RestartsNeverHelp` | latplan/util/search.py:56-62 | When a simple path exists the first attempt already ends the loop; when none exists no attempt returns a state. |
| `RandomWalk.LoopsForever` | latplan/util/search.py:54-86 | The restart loop never ends exactly when no simple path of `length` steps exists and no state without successors ends a shorter simple path from the start. |
| `RandomWalk.AttemptComplete` | latplan/util/search.py:64-86 | When no state without successors ends a simple path of fewer than `length` steps from the start, an attempt returns a state iff a simple path of `length` steps exists. |
| `RandomWalk.WalkRecAsWritten` | latplan/util/search.py:64-79 | The code as written returns `current` iff `length = 0`, raises `ValueError` iff there are no successors, and raises `NameError` otherwise. |
| `RandomWalk.CrashesDespitePath` | latplan/util/search.py:76 | On the graph `[0] -> [1]` with `length = 1`, a path exists and the model finds it, but the code as written raises `NameError`. |
| `Frontier.MinExists` | latplan/util/search.py:19 | `PriorityQueue.get` on a non-empty queue has an entry of least priority to return. |
| `Frontier.ReachClosed` | latplan/util/search.py:17-48 | When every queued priority is at least `m`, every state within `d < m` steps is closed at cost at most `d`. |
| `Frontier.PopIsExact` | latplan/util/search.py:19-22 | An open state popped with minimum priority is popped at its recorded cost, which is its exact breadth-first distance. |
| `UniformCost.Start` | latplan/util/search.py:10-12 | The table holds only the initial state (cost 0, open, not reopened, no parent), queued once at priority 0. |
| `UniformCost.Relax` | latplan/util/search.py:38-48 | A new successor is inserted open at `g_new` with `current` as parent and queued; a known one is updated, reopened and re-queued only when `g_new` is strictly smaller; no cost ever increases and no entry is removed. |
| `UniformCost.Expand` | latplan/util/search.py:37-48 | Expanding adds exactly the successors to the table, never raises a cost, leaves other states untouched, and only adds to the queue. |
| `UniformCost.ExpandInserts` | latplan/util/search.py:37-48 | When no recorded cost exceeds `g_new`, expanding changes no existing node and every new node is open at `g_new` with `current` as parent. |
| `UniformCost.StaleStep` | latplan/util/search.py:19-21 | Skipping a popped entry whose state is closed keeps the loop invariant. |
| `UniformCost.OpenStep` | latplan/util/search.py:19-48 | Popping an open state at `g <= length` keeps the loop invariant, closes exactly that state at its exact distance, and yields it iff the policy wants `g`. |
| `UniformCost.Complete` | latplan/util/search.py:24-26 | When the search stops, every state whose distance the policy wants has been yielded. |
| `UniformCost.Pop` | latplan/util/search.py:17-48 | One loop iteration keeps the invariant, never removes a node or raises a cost, changes nothing when it closes nothing, and yields at most the one state it closes; it stops exactly when it pops an open state beyond `length`, and reports that state. |
| `UniformCost.Dijkstra` | latplan/util/search.py:5-50 | The yielded states are exactly those at a distance `d` with `d == length`, or `d < length` under `include_nonleaf`, each once, in nondecreasing distance; the returned table (with the state popped beyond the cut-off marked closed, as line 22 does before the test on line 24) records the start at 0 without parent and every closed state at its exact distance; no node is ever reopened; every parent is a closed predecessor one step closer. |
| `UniformCostNoReopen.Start` | problem-instances/generate-dijkstra.py:52-54 | The table holds only the initial state at cost 0, open, queued once at priority 0. |
| `UniformCostNoReopen.Relax` | problem-instances/generate-dijkstra.py:74-86 | A closed successor is skipped; an open one is lowered and re-queued only at a strictly smaller cost; a new one is inserted and queued; closed nodes never change. |
| `UniformCostNoReopen.Expand` | problem-instances/generate-dijkstra.py:74-86 | Expanding adds exactly the successors, never raises a cost, never touches a closed node, and only adds to the queue. |
| `UniformCostNoReopen.ExpandInserts` | problem-instances/generate-dijkstra.py:74-86 | When no recorded cost exceeds `g_new`, expanding only inserts new open nodes at `g_new`, each queued exactly once. |
| `UniformCostNoReopen.OpenStep` | problem-instances/generate-dijkstra.py:59-86 | A pop at `g <= length` keeps the invariant (every queued entry is the only entry of an open state, at its cost) and closes exactly that state at its exact distance. |
| `UniformCostNoReopen.Complete` | problem-instances/generate-dijkstra.py:62-64 | When a pop exceeds `length`, every state at distance `length` has been yielded. |
| `UniformCostNoReopen.Pop` | problem-instances/generate-dijkstra.py:59-86 | One loop iteration keeps the invariant, stops without changing anything beyond the cut-off, never changes a closed node, and yields at most the one state it closes. |
| `UniformCostNoReopen.Dijkstra` | problem-instances/generate-dijkstra.py:47-88 | A state is yielded iff its breadth-first distance is exactly `length`, each once; closed states are recorded at their exact distance. |

## Left out

- Console output: the `print` calls and the `expanded` and `g_max` counters. They only feed messages.
- The close table that `dijkstra` in `latplan/util/search.py` yields alongside each state. It is returned once, at the end, as the final table.
- Ties in `queue.PriorityQueue`: any entry of least priority may be popped. Python breaks ties by comparing states, and the proofs hold for every tie-break.
- Python's generators are modelled by their whole output. Laziness and early abandonment by the caller are not modelled.
- The conversion `tuple(succ)`: states are already sequences, so it is the identity.
- numpy arrays and dtypes. Vectors are sequences of integers. `packbits` reads an entry as 1 when it is non-zero.
- `BitVectors.Flip` models one row of the `[:, :n]` slice in `strips.py:88`. That slice needs 2-D input, which the docstring's "1D vector" contradicts; a 1-D call would raise `IndexError`, and that failure is not modelled.
- `BitVectors.RowCount`: `all_flips` divides floats, and the model divides integers. Every division is proved exact, so the two agree while the floats are exact. Rounding of very large counts is not modelled.
- The copies `np.copy(array)` in `flips` (strips.py:95) need no model. Dafny sequences are values, so no yielded vector shares storage with another, and the caller's array is never changed.
- `BitVectors.Flip` takes rows that pack into the same number of bytes, as the one caller (strips.py:149) passes. When the byte counts differ and one of them is 1, numpy broadcasts instead: a one-byte mask is XOR-ed into every byte of a wider row, and a one-byte row against a wider mask keeps, after the slice, the row XOR the mask's first byte. Other unequal byte counts raise `ValueError`. None of these cases is modelled.
- `BitVectors.SetOnes` skips a position beyond the vector's end, which numpy would reject. Combinations never produce one.
- `LightsOut.LightsOutSpecial` reports any raised exception as one flag. The `IndexError` of a missing action and the `ValueError` of a negative `length` are not told apart.
- `Reservoir.ReservoirSampling` takes `limit` as absent or a natural number. A negative `limit` is not modelled.
- `Reservoir.ReservoirSampling` treats its input as a one-shot iterator, which is what the generators passed to it are. A list argument would be walked again from its start by the `for` loop; that case is not modelled.
- `Reservoir.ReservoirSampling` and `Reservoir.ReservoirIntended` say which element each slot holds for a given sequence of draws. They say nothing about the probability distribution of the sample.
- `RandomWalk.Walk`, `RandomWalk.RandomWalkRun`: `random_walk` loops forever when no simple path exists and no state without successors ends a shorter simple path; otherwise it returns a state or crashes. The model gives the restart loop a `fuel` bound and reports `OutOfFuel`, which happens exactly in that case (`RandomWalk.LoopsForever`).
- `RandomWalk.WalkRec` takes `length` as a natural number. With a negative `length` the test on search.py:67 never fires: every attempt explores simple paths until they end, and `random_walk` then crashes or loops forever. That case is not modelled.
- `RandomWalk.WalkRec` also returns the trace of the path it found, which the source discards. It uses the trace only to state what the returned state is the end of.
- `RandomWalk.WalkRec` models the intended test `suc in trace` on line 76, not the crash; see Findings.
- The `ValueError` of `randint(0)` on a state with no successors is the outcome `NoSuccessors`, which `random_walk` propagates as `Crashed`.
- Only the listed functions of the three source files are modelled. Instance generation, file output, the domain-specific successor functions, and the rest of `strips.py` are not part of this model.

## Findings

| source | as written | input that shows it | evidently intended | confidence | as-written member | corrected member |
|---|---|---|---|---|---|---|
| problem-instances/generate-dijkstra.py:110-118 | `zip(generator, range(limit))` pulls element `limit` from the generator before `range` is exhausted, and drops it. The loop then starts at element `limit + 1` with counter `limit + 1`. | `reservoir_sampling(iter([10, 20, 30]), 1)`: `20` is consumed by `zip` and can never be returned, whatever `randrange` draws. | Algorithm R over every element. Take the first `limit` elements without losing one (as `itertools.islice` would), then offer element `limit` with counter `limit + 1`. | not executed | `Reservoir.DroppedElementNeverSampled`, `Reservoir.TwentyIsNeverSampled` | `Reservoir.ReservoirIntended`, `Reservoir.EveryElementEligible` |
| latplan/util/search.py:76 | The trace test calls `np.any` and `np.all`, but only `numpy.random` is imported (as `random`), so `np` is unbound. The `NameError` is not an `AssertionError`, so nothing catches it. | `random_walk([0], 1, succ)` with `succ` giving `[[1]]`: the path `[0] -> [1]` exists, yet the first candidate raises `NameError`. | Skip a successor already on the trace, and otherwise recurse. | not executed | `RandomWalk.WalkRecAsWritten`, `RandomWalk.CrashesDespitePath` | `RandomWalk.WalkRec`, `RandomWalk.AttemptComplete` |

=== FILE: bitvectors.dfy ===
/** The bit-vector helpers of strips.py: `flip` (XOR through numpy's
    packbits/unpackbits), `flips` (recursive enumeration of the vectors with
    exactly `diffbit` ones) and `all_flips` (the same vectors as the rows of
    a matrix). Vectors are `seq<int>` whose entries are 0 or 1. */
module BitVectors {

  import opened StateSpace
  import opened Combinatorics
  import opened PackedBits

  predicate IsBits(v: seq<int>)
  {
    forall i :: 0 <= i < |v| ==> v[i] == 0 || v[i] == 1
  }

  function Zeros(n: nat): (r: seq<int>)
    ensures |r| == n && forall i :: 0 <= i < n ==> r[i] == 0
  {
    seq(n, i => 0)
  }

  /** Number of ones. */
  function Ones(v: seq<int>): nat
  {
    if v == [] then 0 else (if v[0] == 1 then 1 else 0) + Ones(v[1..])
  }

  // ---------------------------------------------------------------- flip

  /** Entry `i` of the mask, which reads as 0 past the mask's end (the
      padding of its last byte). */
  function MaskAt(mask: seq<int>, i: nat): int
  {
    if i < |mask| then mask[i] else 0
  }

  /** `flip(bv1, bv2)` on one row: XOR of the packed rows, unpacked and
      truncated to `bv1`'s width. The model takes rows that pack into the
      same number of bytes, as the one caller in strips.py passes. The result is the element-wise XOR of `row` with `mask`
      (zero-extended). */
  function Flip(row: seq<int>, mask: seq<int>): (r: seq<int>)
    requires ByteCount(|row|) == ByteCount(|mask|)
    ensures |r| == |row| && IsBits(r)
    ensures forall i :: 0 <= i < |row| ==> r[i] == XorBit(row[i], MaskAt(mask, i))
  {
    var x := Pad(row);
    var y := Pad(mask);
    XorRoundTrip(x, y);
    forall i | 0 <= i < |row|
      ensures x[i] == row[i] && y[i] == MaskAt(mask, i)
    {
    }
    UnpackBits(XorBytes(PackBits(row), PackBits(mask)))[..|row|]
  }

  /** Flipping twice with the same mask restores a 0/1 vector. */
  lemma FlipTwice(v: seq<int>, mask: seq<int>)
    requires IsBits(v) && ByteCount(|v|) == ByteCount(|mask|)
    ensures Flip(Flip(v, mask), mask) == v
  {
  }

  // --------------------------------------------------------------- flips

  /** `vec` with a one at each position of `c`; a position past the end
      is passed over (the combinations used here never hold one). */
  function SetOnes(vec: seq<int>, c: seq<nat>): (r: seq<int>)
    ensures |r| == |vec|
    decreases c
  {
    if c == [] then vec
    else SetOnes(if c[0] < |vec| then vec[c[0] := 1] else vec, c[1..])
  }

  /** Every position of `c` is below `n`. */
  predicate FitsIn(c: seq<nat>, n: nat)
  {
    forall j :: 0 <= j < |c| ==> c[j] < n
  }

  /** The rows `SetOnes(vec, c)` for every combination `c` of `cs`. */
  function Indicators(vec: seq<int>, cs: seq<seq<nat>>): (r: seq<seq<int>>)
    ensures |r| == |cs|
  {
    seq(|cs|, i requires 0 <= i < |cs| => SetOnes(vec, cs[i]))
  }

  lemma {:induction false} OnesSet(v: seq<int>, i: nat)
    requires i < |v| && v[i] == 0
    ensures Ones(v[i := 1]) == Ones(v) + 1
  {
    if i > 0 {
      OnesSet(v[1..], i - 1);
      assert v[i := 1][1..] == v[1..][i - 1 := 1];
    }
  }

  /** The inner generator `rec(start, k, vec)` of `flips`: once `k` ones
      are placed the vector itself is yielded, otherwise each position from
      `start` on is tried in turn. */
  function FlipsRec(bitnum: nat, start: nat, k: nat, vec: seq<int>): seq<seq<int>>
    requires |vec| == bitnum && start <= bitnum
    decreases k, 1, 0
  {
    if k > 0 then FlipsLoop(bitnum, start, k, vec) else [vec]
  }

  /** The `for i in range(start, bitnum)` loop of `rec`: a copy of `vec`
      with a one at `i`, recursed on from `i + 1`. */
  function FlipsLoop(bitnum: nat, i: nat, k: nat, vec: seq<int>): seq<seq<int>>
    requires k > 0 && |vec| == bitnum && i <= bitnum
    decreases k, 0, bitnum - i
  {
    if i == bitnum then []
    else FlipsRec(bitnum, i + 1, k - 1, vec[i := 1]) + FlipsLoop(bitnum, i + 1, k, vec)
  }

  /** `flips(bitnum, diffbit)`: for a positive `diffbit`, the indicator rows
      of the ascending `diffbit`-combinations of positions, in lexicographic
      order; otherwise the all-zero vector alone. */
  function Flips(bitnum: nat, diffbit: int): (r: seq<seq<int>>)
    ensures diffbit > 0 ==> r == Indicators(Zeros(bitnum), Combinations(bitnum, diffbit))
    ensures diffbit <= 0 ==> r == [Zeros(bitnum)]
  {
    if diffbit > 0 then
      FlipsRecIsIndicators(bitnum, 0, diffbit, Zeros(bitnum));
      FlipsRec(bitnum, 0, diffbit, Zeros(bitnum))
    else [Zeros(bitnum)]
  }

  /** `rec` enumerates exactly the combinations of `CombFrom`, in the same
      order, as indicator rows. */
  lemma {:induction false} FlipsRecIsIndicators(bitnum: nat, start: nat, k: nat, vec: seq<int>)
    requires |vec| == bitnum && start <= bitnum
    ensures FlipsRec(bitnum, start, k, vec) == Indicators(vec, CombFrom(start, bitnum, k))
    decreases k, 1, 0
  {
    if k > 0 {
      FlipsLoopIsIndicators(bitnum, start, k, vec);
    }
  }

  lemma {:induction false} FlipsLoopIsIndicators(bitnum: nat, i: nat, k: nat, vec: seq<int>)
    requires k > 0 && |vec| == bitnum && i <= bitnum
    ensures FlipsLoop(bitnum, i, k, vec) == Indicators(vec, CombFrom(i, bitnum, k))
    decreases k, 0, bitnum - i
  {
    if i < bitnum {
      FlipsRecIsIndicators(bitnum, i + 1, k - 1, vec[i := 1]);
      FlipsLoopIsIndicators(bitnum, i + 1, k, vec);
      FlipsLoopStep(bitnum, i, k, vec);
    } else {
      FlipsLoopEnd(bitnum, k, vec);
    }
  }

  /** One round of the loop: the rows through `i` followed by those past it
      are the rows of the combinations from `i` on. */
  lemma FlipsLoopStep(bitnum: nat, i: nat, k: nat, vec: seq<int>)
    requires k > 0 && |vec| == bitnum && i < bitnum
    requires FlipsRec(bitnum, i + 1, k - 1, vec[i := 1]) == Indicators(vec[i := 1], CombFrom(i + 1, bitnum, k - 1))
    requires FlipsLoop(bitnum, i + 1, k, vec) == Indicators(vec, CombFrom(i + 1, bitnum, k))
    ensures FlipsLoop(bitnum, i, k, vec) == Indicators(vec, CombFrom(i, bitnum, k))
  {
    IndicatorsStep(vec, bitnum, i, k);
  }

  lemma FlipsLoopEnd(bitnum: nat, k: nat, vec: seq<int>)
    requires k > 0 && |vec| == bitnum
    ensures FlipsLoop(bitnum, bitnum, k, vec) == Indicators(vec, CombFrom(bitnum, bitnum, k)) == []
  {
    assert CombFrom(bitnum, bitnum, k) == [];
  }

  /** The combinations from `i` on, as indicator rows: first those through
      `i` (set in a copy), then those past it. */
  lemma IndicatorsStep(vec: seq<int>, n: nat, i: nat, k: nat)
    requires |vec| == n && i < n && k > 0
    ensures Indicators(vec, CombFrom(i, n, k))
         == Indicators(vec[i := 1], CombFrom(i + 1, n, k - 1)) + Indicators(vec, CombFrom(i + 1, n, k))
  {
    var xs := CombFrom(i + 1, n, k - 1);
    var ys := CombFrom(i + 1, n, k);
    assert CombFrom(i, n, k) == Prepend(i, xs) + ys;
    IndicatorsPrepend(vec, i, xs);
    IndicatorsAppend(vec, Prepend(i, xs), ys);
  }

  lemma CombFromFits(lo: nat, n: nat, k: nat)
    ensures forall c :: c in CombFrom(lo, n, k) ==> FitsIn(c, n)
  {
    forall c | c in CombFrom(lo, n, k)
      ensures FitsIn(c, n)
    {
      assert IsCombination(c, lo, n, k);
    }
  }

  lemma IndicatorsAppend(vec: seq<int>, a: seq<seq<nat>>, b: seq<seq<nat>>)
    ensures Indicators(vec, a + b) == Indicators(vec, a) + Indicators(vec, b)
  {
    assert forall c :: c in a + b ==> c in a || c in b;
  }

  /** Setting position `i` first and then the rest is the same as setting
      the combinations that start with `i`. */
  lemma IndicatorsPrepend(vec: seq<int>, i: nat, xs: seq<seq<nat>>)
    requires i < |vec|
    ensures Indicators(vec, Prepend(i, xs)) == Indicators(vec[i := 1], xs)
  {
    var p := Prepend(i, xs);
    forall j | 0 <= j < |xs|
      ensures SetOnes(vec, p[j]) == SetOnes(vec[i := 1], xs[j])
    {
      assert xs[j] in xs;
      assert p[j][0] == i && p[j][1..] == xs[j];
    }
  }

  /** `flips(bitnum, k)` yields, for each ascending `k`-combination of
      positions in lexicographic order, the vector with ones exactly there. */
  lemma FlipsAreCombinations(bitnum: nat, k: nat)
    ensures Flips(bitnum, k) == Indicators(Zeros(bitnum), Combinations(bitnum, k))
  {
    if k == 0 {
      assert Combinations(bitnum, 0) == [[]];
    }
  }

  lemma {:induction false} OnesZeros(n: nat)
    ensures Ones(Zeros(n)) == 0
  {
    if n > 0 {
      OnesZeros(n - 1);
      assert Zeros(n)[1..] == Zeros(n - 1);
    }
  }

  /** Setting the ones of an ascending combination on positions that hold
      zeros adds one per position and keeps a 0/1 vector. */
  lemma {:induction false} OnesSetOnes(vec: seq<int>, c: seq<nat>)
    requires FitsIn(c, |vec|) && Increasing(c) && IsBits(vec)
    requires forall j :: 0 <= j < |c| ==> vec[c[j]] == 0
    ensures IsBits(SetOnes(vec, c)) && Ones(SetOnes(vec, c)) == Ones(vec) + |c|
    decreases c
  {
    if c != [] {
      var next := vec[c[0] := 1];
      OnesSet(vec, c[0]);
      forall j | 0 <= j < |c| - 1
        ensures next[c[1..][j]] == 0
      {
        assert c[0] < c[j + 1];
      }
      OnesSetOnes(next, c[1..]);
    }
  }

  /** Every vector `flips(bitnum, diffbit)` yields is a 0/1 vector of width
      `bitnum` with exactly `diffbit` ones (none when `diffbit <= 0`). */
  lemma FlipsRows(bitnum: nat, diffbit: int)
    ensures forall v :: v in Flips(bitnum, diffbit) ==>
              |v| == bitnum && IsBits(v) && Ones(v) == (if diffbit > 0 then diffbit else 0)
  {
    OnesZeros(bitnum);
    if diffbit > 0 {
      var cs := Combinations(bitnum, diffbit);
      CombFromFits(0, bitnum, diffbit);
      forall v | v in Flips(bitnum, diffbit)
        ensures |v| == bitnum && IsBits(v) && Ones(v) == diffbit
      {
        var i :| 0 <= i < |cs| && v == SetOnes(Zeros(bitnum), cs[i]);
        assert cs[i] in cs;
        assert IsCombination(cs[i], 0, bitnum, diffbit);
        OnesSetOnes(Zeros(bitnum), cs[i]);
      }
    }
  }

  /** `flips` yields C(bitnum, k) vectors, no two alike, in lexicographic
      order of their sets of one-positions. */
  lemma FlipsCountAndOrder(bitnum: nat, k: nat)
    ensures |Flips(bitnum, k)| == Binomial(bitnum, k)
    ensures Distinct(Flips(bitnum, k))
    ensures Flips(bitnum, k) == Indicators(Zeros(bitnum), Combinations(bitnum, k)) &&
            LexSorted(Combinations(bitnum, k))
  {
    FlipsAreCombinations(bitnum, k);
    CombFromCount(0, bitnum, k);
    CombFromSorted(0, bitnum, k);
    IndicatorsDistinct(bitnum, Combinations(bitnum, k));
  }

  /** Distinct combinations give distinct indicator rows. */
  lemma IndicatorsDistinct(bitnum: nat, cs: seq<seq<nat>>)
    requires forall c :: c in cs ==> IsCombination(c, 0, bitnum, |c|)
    requires Distinct(cs)
    ensures Distinct(Indicators(Zeros(bitnum), cs))
  {

    var r := Indicators(Zeros(bitnum), cs);
    forall i, j | 0 <= i < j < |r|
      ensures r[i] != r[j]
    {
      assert cs[i] in cs && cs[j] in cs;
      if r[i] == r[j] {
        IndicatorInjective(bitnum, cs[i], cs[j]);
      }
    }
  }

  /** Which positions `SetOnes` sets. */
  lemma {:induction false} SetOnesAt(vec: seq<int>, c: seq<nat>, p: nat)
    requires FitsIn(c, |vec|)
    requires p < |vec|
    ensures SetOnes(vec, c)[p] == (if p in c then 1 else vec[p])
    decreases c
  {
    if c != [] {
      SetOnesAt(vec[c[0] := 1], c[1..], p);
      assert p in c <==> p == c[0] || p in c[1..];
    }
  }

  /** An ascending combination is determined by its set of entries. */
  lemma {:induction false} IncreasingDeterminedByElements(a: seq<nat>, b: seq<nat>)
    requires Increasing(a) && Increasing(b)
    requires forall p :: p in a <==> p in b
    ensures a == b
  {
    if a != [] {
      assert a[0] in a;
    }
    if b != [] {
      assert b[0] in b;
    }
    if a != [] && b != [] {
      IncreasingHead(a);
      IncreasingHead(b);
      assert a[0] in a && b[0] in b;
      assert a[0] == b[0];
      IncreasingDeterminedByElements(a[1..], b[1..]);
      assert a == [a[0]] + a[1..] && b == [b[0]] + b[1..];
    }
  }

  /** The head of an ascending sequence is its least entry, and its tail
      holds exactly the other entries. */
  lemma IncreasingHead(a: seq<nat>)
    requires Increasing(a) && a != []
    ensures forall p :: p in a ==> a[0] <= p
    ensures forall p :: p in a[1..] <==> p in a && p != a[0]
    ensures Increasing(a[1..])
  {
    forall p | p in a
      ensures a[0] <= p
    {
      var m :| 0 <= m < |a| && a[m] == p;
      assert m == 0 || a[0] < a[m];
    }
    forall p | p in a[1..]
      ensures p in a && p != a[0]
    {
      var m :| 0 <= m < |a| - 1 && a[1..][m] == p;
      assert a[0] < a[m + 1];
    }
    forall p | p in a && p != a[0]
      ensures p in a[1..]
    {
      var m :| 0 <= m < |a| && a[m] == p;
      assert a[1..][m - 1] == p;
    }
  }

  /** Distinct combinations give distinct indicator rows. */
  lemma IndicatorInjective(bitnum: nat, a: seq<nat>, b: seq<nat>)
    requires IsCombination(a, 0, bitnum, |a|) && IsCombination(b, 0, bitnum, |b|)
    requires SetOnes(Zeros(bitnum), a) == SetOnes(Zeros(bitnum), b)
    ensures a == b
  {
    forall p
      ensures p in a <==> p in b
    {
      if p in a || p in b {
        assert p < bitnum;
        SetOnesAt(Zeros(bitnum), a, p);
        SetOnesAt(Zeros(bitnum), b, p);
      }
    }
    IncreasingDeterminedByElements(a, b);
  }

  /** `flips` with `diffbit = 0` yields the single all-zero vector, and with
      `diffbit > bitnum` yields nothing. */
  lemma FlipsEdgeCases(bitnum: nat, diffbit: int)
    ensures diffbit == 0 ==> Flips(bitnum, diffbit) == [Zeros(bitnum)]
    ensures diffbit > bitnum ==> Flips(bitnum, diffbit) == []
  {
    if diffbit > bitnum {
      FlipsCountAndOrder(bitnum, diffbit);
      BinomialAbove(bitnum, diffbit);
    }
  }

  // ----------------------------------------------------------- all_flips

  /** `all_flips(bitnum, diffbit)`: the row count is computed as the falling
      product `bitnum * ... * (bitnum - diffbit + 1)` divided by `1, 2, ...,
      diffbit` in turn, then row `i` gets ones at the `i`-th combination of
      `itertools.combinations(range(bitnum), diffbit)`. A negative `diffbit`
      makes `itertools.combinations` raise, modelled as `None`. The matrix
      holds exactly the vectors `flips` yields, in the same order. */
  method AllFlips(bitnum: nat, diffbit: int) returns (r: Option<seq<seq<int>>>)
    ensures r == None <==> diffbit < 0
    ensures diffbit >= 0 ==> r == Some(Flips(bitnum, diffbit))
    ensures diffbit >= 0 ==> |r.value| == Binomial(bitnum, diffbit)
  {
    var size := RowCount(bitnum, diffbit);
    if diffbit < 0 {
      return None;
    }
    var combos := Combinations(bitnum, diffbit);
    CombFromCount(0, bitnum, diffbit);
    var m := FillRows(bitnum, size, combos);
    assert m.Some? && m.value == m.value[..|combos|];
    FlipsAreCombinations(bitnum, diffbit);
    r := Some(m.value);
  }

  /** The row count of `all_flips`: the product of `bitnum - diffbit + 1`
      through `bitnum`, divided by `1`, `2`, ..., `diffbit` in turn. Every
      division is exact and the count is C(bitnum, diffbit); a negative
      `diffbit` leaves both loops empty. */
  method RowCount(bitnum: nat, diffbit: int) returns (size: int)
    ensures diffbit >= 0 ==> size == Binomial(bitnum, diffbit)
    ensures diffbit < 0 ==> size == 1
  {
    size := 1;
    var lo := bitnum - diffbit + 1;
    var i := lo;
    while i < bitnum + 1
      invariant if lo <= bitnum + 1 then lo <= i <= bitnum + 1 else i == lo
      invariant size == RangeProduct(lo, i)
      decreases bitnum + 1 - i
    {
      size := size * i;
      i := i + 1;
    }
    if diffbit < 0 {
      return;
    }
    var d: nat := diffbit;
    var c := Binomial(bitnum, d);
    if d <= bitnum {
      BinomialFalling(bitnum, d);
      FactorialProduct(d);
    } else {
      RangeProductZero(lo, bitnum + 1);
      BinomialAbove(bitnum, d);
    }
    var j := 1;
    while j < d + 1
      invariant 1 <= j <= d + 1
      invariant size == c * RangeProduct(j, d + 1)
    {
      RangeProductLow(j, d + 1);
      ScaleDiv(c, RangeProduct(j + 1, d + 1), j);
      size := size / j;
      j := j + 1;
    }
  }

  /** `array = np.zeros((size, bitnum))` followed by `array[i, indices] = 1`
      for the `i`-th combination. `None` when the matrix has fewer rows than
      there are combinations (numpy's `IndexError`, or its `ValueError` for a
      negative `size`); otherwise row `i` is the indicator row of `combos[i]`
      and any rows beyond the combinations stay zero. */
  method FillRows(bitnum: nat, size: int, combos: seq<seq<nat>>) returns (m: Option<seq<seq<int>>>)
    ensures m.Some? <==> |combos| <= size
    ensures m.Some? ==> |m.value| == size && m.value[..|combos|] == Indicators(Zeros(bitnum), combos)
    ensures m.Some? ==> forall t :: |combos| <= t < size ==> m.value[t] == Zeros(bitnum)
  {
    if size < |combos| {
      return None;
    }
    var rows := seq(size, _ => Zeros(bitnum));
    var k := 0;
    while k < |combos|
      invariant 0 <= k <= |combos| <= |rows| == size
      invariant forall t :: 0 <= t < k ==> rows[t] == SetOnes(Zeros(bitnum), combos[t])
      invariant forall t :: k <= t < |rows| ==> rows[t] == Zeros(bitnum)
    {
      rows := rows[k := SetOnes(rows[k], combos[k])];
      k := k + 1;
    }
    return Some(rows);
  }

  /** The divisions of `all_flips` are exact: `c * (j * x)` divided by `j`
      is `c * x`. */
  lemma ScaleDiv(c: int, x: int, j: int)
    requires j > 0
    ensures c * (j * x) / j == c * x
  {
    assert c * (j * x) == (c * x) * j;
    MulDiv(c * x, j);
  }

  lemma MulDiv(y: int, j: int)
    requires j > 0
    ensures y * j / j == y
  {
    var q, r := y * j / j, y * j % j;
    assert y * j == j * q + r && 0 <= r < j;
    assert j * (y - q) == r;
    MulBounds(j, y - q);
  }

  /** A non-zero multiple of `j > 0` is at least `j` in size. */
  lemma {:induction false} MulBounds(j: int, k: int)
    requires j > 0
    ensures k >= 1 ==> j * k >= j
    ensures k <= -1 ==> j * k <= -j
    decreases if k < 0 then -k else k
  {
    if k > 1 {
      MulBounds(j, k - 1);
      assert j * k == j * (k - 1) + j;
    } else if k < -1 {
      MulBounds(j, k + 1);
      assert j * k == j * (k + 1) - j;
    }
  }
}

=== FILE: combinatorics.dfy ===
/** Ascending index combinations in lexicographic order, as enumerated by
    `itertools.combinations(range(n), k)`, and the binomial coefficients that
    count them. Shared by the bit-vector helpers and the Lights-Out sampler. */
module Combinatorics {

  import opened StateSpace

  /** Pascal's rule; C(n, k) = 0 when k > n. */
  function Binomial(n: nat, k: nat): nat
  {
    if k == 0 then 1
    else if n == 0 then 0
    else Binomial(n - 1, k - 1) + Binomial(n - 1, k)
  }

  lemma {:induction false} BinomialAbove(n: nat, k: nat)
    requires k > n
    ensures Binomial(n, k) == 0
  {
    if n > 0 {
      BinomialAbove(n - 1, k - 1);
      BinomialAbove(n - 1, k);
    }
  }

  predicate Increasing(c: seq<nat>)
  {
    forall i, j :: 0 <= i < j < |c| ==> c[i] < c[j]
  }

  /** Every entry of `c` lies in `[lo, n)`. */
  predicate Within(c: seq<nat>, lo: nat, n: nat)
  {
    forall i :: 0 <= i < |c| ==> lo <= c[i] < n
  }

  /** `c` is an ascending `k`-combination of `[lo, n)`. */
  predicate IsCombination(c: seq<nat>, lo: nat, n: nat, k: nat)
  {
    |c| == k && Increasing(c) && Within(c, lo, n)
  }

  /** Puts `x` in front of every combination of `cs`. */
  function Prepend(x: nat, cs: seq<seq<nat>>): (r: seq<seq<nat>>)
    ensures |r| == |cs|
    ensures forall i :: 0 <= i < |cs| ==> r[i] == [x] + cs[i]
  {
    seq(|cs|, i requires 0 <= i < |cs| => [x] + cs[i])
  }

  /** The ascending `k`-combinations of `[lo, n)`: first those that start
      with `lo`, then those that do not. */
  function CombFrom(lo: nat, n: nat, k: nat): (r: seq<seq<nat>>)
    ensures forall c :: c in r ==> IsCombination(c, lo, n, k)
    decreases n - lo
  {
    if k == 0 then [[]]
    else if lo >= n then []
    else
      var withLo := CombFrom(lo + 1, n, k - 1);
      var withoutLo := CombFrom(lo + 1, n, k);
      assert forall c :: c in withLo ==> IsCombination([lo] + c, lo, n, k);
      Prepend(lo, withLo) + withoutLo
  }

  /** `itertools.combinations(range(n), k)`. */
  function Combinations(n: nat, k: nat): seq<seq<nat>>
  {
    CombFrom(0, n, k)
  }

  /** There are exactly C(n - lo, k) of them. */
  lemma {:induction false} CombFromCount(lo: nat, n: nat, k: nat)
    requires lo <= n
    ensures |CombFrom(lo, n, k)| == Binomial(n - lo, k)
    decreases n - lo
  {
    if k > 0 && lo < n {
      CombFromCount(lo + 1, n, k - 1);
      CombFromCount(lo + 1, n, k);
    }
  }

  /** Every ascending `k`-combination of `[lo, n)` is enumerated. */
  lemma {:induction false} CombFromComplete(lo: nat, n: nat, k: nat, c: seq<nat>)
    requires IsCombination(c, lo, n, k)
    ensures c in CombFrom(lo, n, k)
    decreases n - lo, 1
  {
    if k == 0 {
      assert c == [];
    } else if c[0] == lo {
      CompleteWithLo(lo, n, k, c);
    } else {
      CompleteWithoutLo(lo, n, k, c);
    }
  }

  /** A combination that starts with `lo` is among those built from `lo`. */
  lemma {:induction false} CompleteWithLo(lo: nat, n: nat, k: nat, c: seq<nat>)
    requires IsCombination(c, lo, n, k) && k > 0 && c[0] == lo
    ensures c in CombFrom(lo, n, k)
    decreases n - lo, 0
  {
    var tail := c[1..];
    assert IsCombination(tail, lo + 1, n, k - 1) by {
      forall i | 0 <= i < |tail|
        ensures lo + 1 <= tail[i] < n
      {
        assert c[0] < c[i + 1];
      }
    }
    CombFromComplete(lo + 1, n, k - 1, tail);
    var withLo := CombFrom(lo + 1, n, k - 1);
    var j :| 0 <= j < |withLo| && withLo[j] == tail;
    assert c == [lo] + tail;
    assert CombFrom(lo, n, k)[j] == c;
  }

  /** A combination that skips `lo` is among the rest. */
  lemma {:induction false} CompleteWithoutLo(lo: nat, n: nat, k: nat, c: seq<nat>)
    requires IsCombination(c, lo, n, k) && k > 0 && c[0] != lo
    ensures c in CombFrom(lo, n, k)
    decreases n - lo, 0
  {
    assert IsCombination(c, lo + 1, n, k) by {
      forall i | 0 <= i < |c|
        ensures lo + 1 <= c[i]
      {
        if i > 0 {
          assert c[0] < c[i];
        }
      }
    }
    CombFromComplete(lo + 1, n, k, c);
    assert CombFrom(lo, n, k) == Prepend(lo, CombFrom(lo + 1, n, k - 1)) + CombFrom(lo + 1, n, k);
  }

  /** Strict lexicographic order on index tuples. */
  predicate LexLess(a: seq<nat>, b: seq<nat>)
  {
    |b| > 0 && (|a| == 0 || a[0] < b[0] || (a[0] == b[0] && LexLess(a[1..], b[1..])))
  }

  predicate LexSorted(cs: seq<seq<nat>>)
  {
    forall i, j :: 0 <= i < j < |cs| ==> LexLess(cs[i], cs[j])
  }

  lemma {:induction false} LexLessIrreflexive(a: seq<nat>)
    ensures !LexLess(a, a)
  {
    if |a| > 0 {
      LexLessIrreflexive(a[1..]);
    }
  }

  /** A strictly sorted list has no repeated entry. */
  lemma LexSortedDistinct(cs: seq<seq<nat>>)
    requires LexSorted(cs)
    ensures Distinct(cs)
  {
    forall i, j | 0 <= i < j < |cs|
      ensures cs[i] != cs[j]
    {
      LexLessIrreflexive(cs[i]);
    }
  }

  /** The enumeration is in strictly increasing lexicographic order, so each
      combination appears exactly once. */
  lemma {:induction false} CombFromSorted(lo: nat, n: nat, k: nat)
    ensures LexSorted(CombFrom(lo, n, k))
    ensures Distinct(CombFrom(lo, n, k))
    decreases n - lo
  {
    var r := CombFrom(lo, n, k);
    if k > 0 && lo < n {
      var xs := CombFrom(lo + 1, n, k - 1);
      var ys := CombFrom(lo + 1, n, k);
      CombFromSorted(lo + 1, n, k - 1);
      CombFromSorted(lo + 1, n, k);
      var a := Prepend(lo, xs);
      assert r == a + ys;
      forall i, j | 0 <= i < j < |r|
        ensures LexLess(r[i], r[j])
      {
        if j < |a| {
          assert r[i] == [lo] + xs[i] && r[j] == [lo] + xs[j];
          assert r[i][1..] == xs[i] && r[j][1..] == xs[j];
        } else if i < |a| {
          var y := ys[j - |a|];
          assert y in ys;
          assert r[i][0] == lo && r[j] == y && |y| == k;
        } else {
          assert r[i] == ys[i - |a|] && r[j] == ys[j - |a|];
        }
      }
    }
    LexSortedDistinct(r);
  }

  function Factorial(n: nat): (r: nat)
    ensures r >= 1
  {
    if n == 0 then 1 else Factorial(n - 1) * n
  }

  /** The product `lo * (lo + 1) * ... * (hi - 1)`, 1 when the range is empty. */
  function RangeProduct(lo: int, hi: int): int
    decreases hi - lo
  {
    if lo >= hi then 1 else RangeProduct(lo, hi - 1) * (hi - 1)
  }

  /** The product can also be peeled from the bottom. */
  lemma {:induction false} RangeProductLow(lo: int, hi: int)
    requires lo < hi
    ensures RangeProduct(lo, hi) == lo * RangeProduct(lo + 1, hi)
    decreases hi - lo
  {
    if lo + 1 < hi {
      RangeProductLow(lo, hi - 1);
      assert RangeProduct(lo, hi) == lo * RangeProduct(lo + 1, hi - 1) * (hi - 1);
    }
  }

  /** A range that spans zero multiplies to zero. */
  lemma {:induction false} RangeProductZero(lo: int, hi: int)
    requires lo <= 0 < hi
    ensures RangeProduct(lo, hi) == 0
    decreases hi - lo
  {
    if hi - 1 != 0 {
      RangeProductZero(lo, hi - 1);
    }
  }

  /** C(n, d) * d! is the falling product n * (n - 1) * ... * (n - d + 1). */
  lemma {:induction false} BinomialFalling(n: nat, d: nat)
    requires d <= n
    ensures Binomial(n, d) * Factorial(d) == RangeProduct(n - d + 1, n + 1)
  {
    if d > 0 {
      var b1, b2 := Binomial(n - 1, d - 1), Binomial(n - 1, d);
      var f1, f := Factorial(d - 1), Factorial(d);
      var x := RangeProduct(n - d + 1, n);
      BinomialFalling(n - 1, d - 1);
      assert b1 * f1 == x;
      assert b1 * f == d * x by {
        assert f == f1 * d;
        MulAssoc(b1, f1, d);
      }
      assert b2 * f == (n - d) * x by {
        if d < n {
          BinomialFalling(n - 1, d);
          RangeProductLow(n - d, n);
        } else {
          BinomialAbove(n - 1, d);
        }
      }
      assert Binomial(n, d) == b1 + b2;
      Distrib(b1, b2, f);
      Distrib(d, n - d, x);
      assert RangeProduct(n - d + 1, n + 1) == x * n;
    }
  }

  lemma MulAssoc(a: int, b: int, c: int)
    ensures a * b * c == a * (b * c)
  {
  }

  lemma Distrib(a: int, b: int, c: int)
    ensures (a + b) * c == a * c + b * c
  {
  }

  /** d! is the product 1 * 2 * ... * d. */
  lemma {:induction false} FactorialProduct(d: nat)
    ensures Factorial(d) == RangeProduct(1, d + 1)
  {
    if d > 0 {
      FactorialProduct(d - 1);
    }
  }
}

=== FILE: frontier.dfy ===
/** The theory shared by both uniform-cost searches: a priority frontier of
    `(g, state)` entries with minimum extraction, and the breadth-first
    argument that, with unit step costs, a state popped while still open is
    popped at its exact distance from the initial state. The searches'
    close tables are viewed here through two projections: the recorded
    costs `g` and the set `closed` of states already expanded. */
module Frontier {

  import opened StateSpace

  /** A frontier entry: priority first, as in the `(g, state)` tuples the
      searches put on their `PriorityQueue`. */
  type Entry = (nat, State)

  /** `e` is an entry of least priority: what `PriorityQueue.get` returns
      (ties between equal priorities are left open). */
  predicate IsMin(f: multiset<Entry>, e: Entry)
  {
    e in f && forall x :: x in f ==> e.0 <= x.0
  }

  predicate AllAtLeast(f: multiset<Entry>, m: int)
  {
    forall x :: x in f ==> x.0 >= m
  }

  /** A non-empty frontier has an entry of least priority. */
  lemma {:induction false} MinExists(f: multiset<Entry>) returns (e: Entry)
    requires f != multiset{}
    ensures IsMin(f, e)
    decreases |f|
  {
    assert |f| > 0;
    var x: Entry :| x in f;
    var rest := f - multiset{x};
    forall y: Entry | y in f && y != x
      ensures y in rest
    {
      assert rest[y] == f[y];
    }
    if rest == multiset{} {
      e := x;
    } else {
      var m := MinExists(rest);
      e := if x.0 < m.0 then x else m;
    }
  }

  /** Every recorded cost is achievable: state `s` is within `g[s]` steps. */
  ghost predicate Sound(init: State, succ: Successors, g: map<State, nat>)
  {
    forall s :: s in g ==> s in Reach(init, succ, g[s])
  }

  /** Every entry names a recorded state, at no less than its recorded cost. */
  predicate Valid(g: map<State, nat>, f: multiset<Entry>)
  {
    forall e :: e in f ==> e.1 in g && e.0 >= g[e.1]
  }

  /** Every recorded state that is not closed waits on the frontier at its
      recorded cost. */
  predicate Queued(g: map<State, nat>, closed: set<State>, f: multiset<Entry>)
  {
    forall s :: s in g && s !in closed ==> (g[s], s) in f
  }

  /** Every successor of a closed state is recorded, at most one step
      further than it. */
  ghost predicate ClosedExpanded(succ: Successors, g: map<State, nat>, closed: set<State>)
  {
    closed <= g.Keys &&
    forall s, c :: s in closed && c in succ(s) ==> c in g && g[c] <= g[s] + 1
  }

  /** The shape the searches keep at the head of their loops. */
  ghost predicate Layered(init: State, succ: Successors, g: map<State, nat>, closed: set<State>, f: multiset<Entry>)
  {
    init in g && g[init] == 0 &&
    Sound(init, succ, g) && Valid(g, f) && Queued(g, closed, f) &&
    ClosedExpanded(succ, g, closed)
  }

  /** The states within `length` steps (none beyond the start when
      `length` is negative): everything a search with cut-off `length` can
      ever close. */
  ghost function Bound(init: State, succ: Successors, length: int): set<State>
  {
    Reach(init, succ, if length >= 0 then length else 0)
  }

  /** Closing one more state of a bounded region shrinks what is left of
      it: the measure that makes both searches terminate. */
  lemma Shrink(bound: set<State>, closed: set<State>, x: State)
    requires x in bound && x !in closed
    ensures |bound - (closed + {x})| < |bound - closed|
  {
    var rest := bound - (closed + {x});
    assert bound - closed == rest + {x} && x !in rest;
  }

  /** An open state waits at a priority no smaller than any bound on the
      frontier. */
  lemma OpenAtLeast(g: map<State, nat>, closed: set<State>, f: multiset<Entry>, m: int)
    requires Queued(g, closed, f) && AllAtLeast(f, m)
    ensures forall s :: s in g && s !in closed ==> g[s] >= m
  {
    forall s | s in g && s !in closed
      ensures g[s] >= m
    {
      assert (g[s], s) in f;
    }
  }

  /** When every frontier entry has priority at least `m`, every state
      within `d < m` steps is closed, recorded at no more than `d`. */
  lemma {:induction false} ReachClosed(init: State, succ: Successors, g: map<State, nat>, closed: set<State>,
                                       f: multiset<Entry>, m: int, d: nat)
    requires init in g && g[init] == 0
    requires Queued(g, closed, f) && ClosedExpanded(succ, g, closed) && AllAtLeast(f, m) && d < m
    ensures forall v :: v in Reach(init, succ, d) ==> v in closed && g[v] <= d
  {
    OpenAtLeast(g, closed, f, m);
    if d > 0 {
      ReachClosed(init, succ, g, closed, f, m, d - 1);
      var p := Reach(init, succ, d - 1);
      forall v | v in Reach(init, succ, d)
        ensures v in closed && g[v] <= d
      {
        if v !in p {
          var u :| u in p && v in succ(u);
        }
      }
    }
  }

  /** With unit costs, an open state popped from the frontier is popped at
      its recorded cost, which is its exact breadth-first distance. */
  lemma PopIsExact(init: State, succ: Successors, g: map<State, nat>, closed: set<State>, f: multiset<Entry>, e: Entry)
    requires Layered(init, succ, g, closed, f)
    requires IsMin(f, e) && e.1 !in closed
    ensures e.0 == g[e.1]
    ensures AtDistance(init, succ, e.1, e.0)
  {
    assert (g[e.1], e.1) in f;
    if e.0 > 0 {
      ReachClosed(init, succ, g, closed, f, e.0, e.0 - 1);
    }
  }
}

=== FILE: lightsout.dfy ===
/** `lightsout_special` of generate-dijkstra.py: instead of searching, it
    enumerates every ascending combination of `length` distinct action
    indices out of `len(init_c)` and folds the successor function over it,
    yielding the state each plan reaches. */
module LightsOut {

  import opened StateSpace
  import opened Combinatorics

  /** What a generator produces: the items it yielded, and whether it then
      stopped by raising instead of returning. */
  datatype Yield<T> = Yield(items: seq<T>, raised: bool)

  /** `current = successor_fn(current)[action]` for each action of `plan` in
      turn; `None` when an action indexes past the successor list (Python's
      `IndexError`). */
  function ApplyPlan(succ: Successors, current: State, plan: seq<nat>): Option<State>
    decreases |plan|
  {
    if plan == [] then Some(current)
    else
      var sucs := succ(current);
      if plan[0] < |sucs| then ApplyPlan(succ, sucs[plan[0]], plan[1..]) else None
  }

  /** The generator loop over `plans`: one item per plan, stopping at the
      first plan that raises. */
  function RunPlans(succ: Successors, init: State, plans: seq<seq<nat>>): (r: Yield<State>)
    ensures |r.items| <= |plans|
    ensures forall i :: 0 <= i < |r.items| ==> ApplyPlan(succ, init, plans[i]) == Some(r.items[i])
    ensures !r.raised ==> |r.items| == |plans|
    ensures r.raised ==> |r.items| < |plans| && ApplyPlan(succ, init, plans[|r.items|]) == None
    decreases |plans|
  {
    if plans == [] then Yield([], false)
    else
      match ApplyPlan(succ, init, plans[0])
      case None => Yield([], true)
      case Some(s) =>
        var rest := RunPlans(succ, init, plans[1..]);
        Yield([s] + rest.items, rest.raised)
  }

  /** `lightsout_special(init_c, length, successor_fn)`. A negative `length`
      makes `itertools.combinations` raise before anything is yielded. */
  function LightsOutSpecial(init: State, length: int, succ: Successors): (r: Yield<State>)
    ensures length < 0 ==> r == Yield([], true)
    ensures length >= 0 && !r.raised ==> |r.items| == Binomial(|init|, length)
    ensures length >= 0 && r.raised ==>
              |r.items| < |Combinations(|init|, length)| &&
              ApplyPlan(succ, init, Combinations(|init|, length)[|r.items|]) == None
    ensures length >= 0 ==> |r.items| <= |Combinations(|init|, length)|
    ensures length >= 0 ==> forall i :: 0 <= i < |r.items| ==>
              ApplyPlan(succ, init, Combinations(|init|, length)[i]) == Some(r.items[i])
  {
    if length < 0 then Yield([], true)
    else
      CombFromCount(0, |init|, length);
      RunPlans(succ, init, Combinations(|init|, length))
  }

  /** Every state has at least `n` successors. */
  ghost predicate ActionsAvailable(succ: Successors, n: nat)
  {
    forall s :: |succ(s)| >= n
  }

  /** A plan whose actions are all below `n` runs to the end when every
      state offers at least `n` successors. */
  lemma {:induction false} ApplyPlanDefined(succ: Successors, current: State, plan: seq<nat>, n: nat)
    requires ActionsAvailable(succ, n)
    requires Within(plan, 0, n)
    ensures ApplyPlan(succ, current, plan).Some?
    decreases |plan|
  {
    if plan != [] {
      assert |succ(current)| >= n;
      ApplyPlanDefined(succ, succ(current)[plan[0]], plan[1..], n);
    }
  }

  /** When every state offers at least `len(init_c)` actions (as in Lights
      Out, where every lamp is an action), the generator never raises and
      yields exactly C(len(init_c), length) states, one per plan. */
  lemma LightsOutNeverRaises(init: State, length: nat, succ: Successors)
    requires ActionsAvailable(succ, |init|)
    ensures !LightsOutSpecial(init, length, succ).raised
    ensures |LightsOutSpecial(init, length, succ).items| == Binomial(|init|, length)
  {
    var plans := Combinations(|init|, length);
    var r := LightsOutSpecial(init, length, succ);
    if r.raised {
      var bad := plans[|r.items|];
      assert bad in plans;
      ApplyPlanDefined(succ, init, bad, |init|);
    }
  }

  /** Each ascending combination of `length` actions is the plan of exactly
      one yielded position, and the item there is the state it reaches. */
  lemma EveryPlanOnce(init: State, length: nat, succ: Successors, plan: seq<nat>)
    requires IsCombination(plan, 0, |init|, length)
    ensures exists i :: 0 <= i < |Combinations(|init|, length)| && Combinations(|init|, length)[i] == plan
    ensures forall i, j :: 0 <= i < j < |Combinations(|init|, length)| ==>
              Combinations(|init|, length)[i] != Combinations(|init|, length)[j]
    ensures forall i :: 0 <= i < |LightsOutSpecial(init, length, succ).items| && Combinations(|init|, length)[i] == plan ==>
              Some(LightsOutSpecial(init, length, succ).items[i]) == ApplyPlan(succ, init, plan)
  {
    var cs := Combinations(|init|, length);
    CombFromComplete(0, |init|, length, plan);
    CombFromSorted(0, |init|, length);
    var i :| 0 <= i < |cs| && cs[i] == plan;
  }
}

=== FILE: packedbits.dfy ===
/** A model of numpy's `packbits` / `unpackbits` along the last axis, for
    one row: entries are packed eight to a byte, most significant bit first,
    and the last byte is padded with zero bits. A byte is its value in
    `[0, 256)`, and `bitwise_xor` on bytes is the bitwise XOR of the values. */
module PackedBits {

  /** numpy's truth value of an entry, as packbits reads it. */
  function Truth(x: int): nat
  {
    if x != 0 then 1 else 0
  }

  /** XOR of the truth values of two entries, as a 0/1 entry. */
  function XorBit(a: int, b: int): int
  {
    if (a != 0) != (b != 0) then 1 else 0
  }

  /** The value of a row of entries read as a binary numeral, most
      significant bit first, every non-zero entry counting as a one. */
  function Value(bits: seq<int>): (r: nat)
    ensures r < Pow2(|bits|)
  {
    if bits == [] then 0
    else 2 * Value(bits[..|bits| - 1]) + Truth(bits[|bits| - 1])
  }

  function Pow2(w: nat): (r: nat)
    ensures r >= 1
  {
    if w == 0 then 1 else 2 * Pow2(w - 1)
  }

  /** The low `w` binary digits of `x`, most significant first. */
  function Digits(x: nat, w: nat): (r: seq<int>)
    ensures |r| == w
    ensures forall i :: 0 <= i < w ==> r[i] == 0 || r[i] == 1
  {
    if w == 0 then [] else Digits(x / 2, w - 1) + [x % 2]
  }

  /** Bitwise XOR of the low `w` binary digits of `x` and `y`. */
  function XorValue(x: nat, y: nat, w: nat): (r: nat)
    ensures r < Pow2(w)
  {
    if w == 0 then 0
    else 2 * XorValue(x / 2, y / 2, w - 1) + (if x % 2 != y % 2 then 1 else 0)
  }

  /** Packs eight entries into one byte, most significant bit first. */
  function PackByte(b: seq<int>): (r: nat)
    requires |b| == 8
    ensures r < 256
  {
    Value(b)
  }

  /** Unpacks a byte into eight 0/1 entries, most significant bit first. */
  function UnpackByte(x: nat): (r: seq<int>)
    ensures |r| == 8
  {
    Digits(x, 8)
  }

  /** Number of bytes packbits produces for `n` entries. */
  function ByteCount(n: nat): nat
  {
    (n + 7) / 8
  }

  /** packbits pads the last byte with zero bits. */
  function Pad(v: seq<int>): (r: seq<int>)
    ensures |r| == 8 * ByteCount(|v|)
    ensures r[..|v|] == v
    ensures forall i :: |v| <= i < |r| ==> r[i] == 0
  {
    v + seq(8 * ByteCount(|v|) - |v|, i => 0)
  }

  function PackAligned(v: seq<int>): (r: seq<nat>)
    requires |v| % 8 == 0
    ensures |r| == |v| / 8
  {
    if v == [] then [] else [PackByte(v[..8])] + PackAligned(v[8..])
  }

  /** `np.packbits` along the last axis. */
  function PackBits(v: seq<int>): (r: seq<nat>)
    ensures |r| == ByteCount(|v|)
  {
    PackAligned(Pad(v))
  }

  /** `np.unpackbits` along the last axis. */
  function UnpackBits(bytes: seq<nat>): (r: seq<int>)
    ensures |r| == 8 * |bytes|
  {
    if bytes == [] then [] else UnpackByte(bytes[0]) + UnpackBits(bytes[1..])
  }

  /** `np.bitwise_xor` on two rows of bytes of the same length. */
  function XorBytes(a: seq<nat>, b: seq<nat>): (r: seq<nat>)
    requires |a| == |b|
    ensures |r| == |a|
  {
    seq(|a|, i requires 0 <= i < |a| => XorValue(a[i], b[i], 8))
  }

  /** Reading two rows as numerals, XOR-ing them bitwise and writing the
      result back out is the entry-wise XOR of their truth values. */
  lemma {:induction false} XorDigits(a: seq<int>, b: seq<int>)
    requires |a| == |b|
    ensures Digits(XorValue(Value(a), Value(b), |a|), |a|)
         == seq(|a|, i requires 0 <= i < |a| => XorBit(a[i], b[i]))
  {
    if a != [] {
      var w := |a|;
      var a', b' := a[..w - 1], b[..w - 1];
      XorDigits(a', b');
      var z := XorValue(Value(a), Value(b), w);
      LastDigit(a);
      LastDigit(b);
      XorValueStep(Value(a), Value(b), w);
      var lhs := Digits(z, w);
      assert lhs == Digits(XorValue(Value(a'), Value(b'), w - 1), w - 1) + [XorBit(a[w - 1], b[w - 1])];
      forall i | 0 <= i < w
        ensures lhs[i] == XorBit(a[i], b[i])
      {
        if i < w - 1 {
          assert a'[i] == a[i] && b'[i] == b[i];
        }
      }
    }
  }

  /** The last entry of a row is the low binary digit of its value. */
  lemma LastDigit(a: seq<int>)
    requires a != []
    ensures Value(a) / 2 == Value(a[..|a| - 1])
    ensures Value(a) % 2 == Truth(a[|a| - 1])
  {
  }

  /** Halving a bitwise XOR drops its low digit. */
  lemma XorValueStep(x: nat, y: nat, w: nat)
    requires w > 0
    ensures XorValue(x, y, w) / 2 == XorValue(x / 2, y / 2, w - 1)
    ensures XorValue(x, y, w) % 2 == (if x % 2 != y % 2 then 1 else 0)
  {
  }

  /** The same fact for one byte. */
  lemma XorByte(a: seq<int>, b: seq<int>)
    requires |a| == 8 && |b| == 8
    ensures UnpackByte(XorValue(PackByte(a), PackByte(b), 8))
         == seq(8, i requires 0 <= i < 8 => XorBit(a[i], b[i]))
  {
    XorDigits(a, b);
  }

  /** Packing, XOR-ing bytes and unpacking is the element-wise XOR. */
  lemma {:induction false} XorRoundTrip(x: seq<int>, y: seq<int>)
    requires |x| == |y| && |x| % 8 == 0
    ensures UnpackBits(XorBytes(PackAligned(x), PackAligned(y)))
         == seq(|x|, i requires 0 <= i < |x| => XorBit(x[i], y[i]))
  {
    if x != [] {
      var px := PackAligned(x);
      var py := PackAligned(y);
      XorRoundTrip(x[8..], y[8..]);
      XorByte(x[..8], y[..8]);
      assert XorBytes(px, py) == [XorValue(px[0], py[0], 8)] + XorBytes(px[1..], py[1..]);
      assert px[1..] == PackAligned(x[8..]) && py[1..] == PackAligned(y[8..]);
    }
  }
}

=== FILE: randomwalk.dfy ===
/** `random_walk` and `random_walk_rec` of latplan/util/search.py: a
    depth-first search for a simple path of exactly `length` steps, trying
    the successors of each state circularly from a random start index, and
    restarting the whole walk when it backtracks out of the root. */
module RandomWalk {

  import opened StateSpace

  /** The random source: `draw(k, n)` is the `k`-th `numpy.random.randint(n)`
      of the run. */
  type Draw = (nat, nat) -> nat

  ghost predicate DrawsInRange(draw: Draw)
  {
    forall k: nat, n: nat :: 0 < n ==> draw(k, n) < n
  }

  /** The outcome of `random_walk_rec`: the state it returns (with the trace
      that led there), `None`, or the `ValueError` that `randint(0)` raises
      on a state without successors, which no `except AssertionError`
      catches. */
  datatype Attempt = Found(state: State, trace: seq<State>) | Backtrack | NoSuccessors

  /** `path` extends `trace` by `n` steps, each to a successor of the state
      before it that equals no earlier state of the path. */
  ghost predicate SimpleExtension(succ: Successors, trace: seq<State>, path: seq<State>, n: nat)
  {
    trace != [] && |path| == |trace| + n && path[..|trace|] == trace &&
    forall i :: |trace| <= i < |path| ==> path[i] in succ(path[i - 1]) && path[i] !in path[..i]
  }

  /** No simple extension of `trace` by `n` steps goes to `c` first. */
  ghost predicate NoWalkVia(succ: Successors, trace: seq<State>, c: State, n: nat)
  {
    forall path :: SimpleExtension(succ, trace, path, n) && |trace| < |path| ==> path[|trace|] != c
  }

  ghost predicate NoWalk(succ: Successors, trace: seq<State>, n: nat)
  {
    forall path :: !SimpleExtension(succ, trace, path, n)
  }

  /** No simple extension of `trace` by fewer than `n` steps that goes to
      `c` first ends in a state without successors. */
  ghost predicate NoDeadEndVia(succ: Successors, trace: seq<State>, c: State, n: nat)
  {
    forall path, m: nat :: m < n && SimpleExtension(succ, trace, path, m) && |trace| < |path| && path[|trace|] == c ==>
      succ(path[|path| - 1]) != []
  }

  /** The candidate `c` is used up: no walk of `n` steps and no reachable
      dead end starts with it. */
  ghost predicate Exhausted(succ: Successors, trace: seq<State>, c: State, n: nat)
  {
    NoWalkVia(succ, trace, c, n) && NoDeadEndVia(succ, trace, c, n)
  }

  /** The index `u` places after `first`, counted circularly in a list of
      `n` successors. */
  function Circular(first: nat, u: nat, n: nat): (r: nat)
    requires first < n && u < n
    ensures r < n
  {
    if first + u < n then first + u else first + u - n
  }

  /** The walk can reach a state without successors while steps remain: a
      simple extension of `trace` by fewer than `n` steps ends there. */
  ghost predicate ReachableDeadEnd(succ: Successors, trace: seq<State>, n: nat)
  {
    exists path, m: nat :: m < n && SimpleExtension(succ, trace, path, m) && succ(path[|path| - 1]) == []
  }

  /** What an attempt from `trace` with `n` steps to go means: a found state
      ends a simple extension by `n` steps, `None` means there is none and
      no dead end was in reach, and the `ValueError` means a dead end lies on
      a simple extension by fewer than `n` steps. */
  ghost predicate Outcome(succ: Successors, trace: seq<State>, n: nat, a: Attempt)
  {
    match a
    case Found(state, path) => SimpleExtension(succ, trace, path, n) && state == path[|path| - 1]
    case Backtrack => NoWalk(succ, trace, n) && !ReachableDeadEnd(succ, trace, n)
    case NoSuccessors => ReachableDeadEnd(succ, trace, n)
  }

  /** The loop's choice: counting circularly from `first`, the candidates
      from the `from`-th up to the `u`-th exclusive are exhausted, the `u`-th
      is not, and a found walk goes through it. */
  ghost predicate Live(succ: Successors, trace: seq<State>, n: nat, sucs: seq<State>, first: nat, from: nat, u: nat, a: Attempt)
  {
    first < |sucs| && from <= u < |sucs| &&
    (forall v :: from <= v < u ==> Exhausted(succ, trace, sucs[Circular(first, v, |sucs|)], n)) &&
    !Exhausted(succ, trace, sucs[Circular(first, u, |sucs|)], n) &&
    (a.Found? ==> |a.trace| > |trace| && a.trace[|trace|] == sucs[Circular(first, u, |sucs|)])
  }

  /** The attempt comes from the first candidate, counting circularly from
      index `first`, that is not exhausted. */
  ghost predicate FirstLive(succ: Successors, trace: seq<State>, n: nat, sucs: seq<State>, first: nat, a: Attempt)
  {
    exists u: nat :: Live(succ, trace, n, sucs, first, 0, u, a)
  }

  /** The loop's choice is a function of the graph and of `first`: at most
      one candidate count satisfies it. */
  lemma ChoiceUnique(succ: Successors, trace: seq<State>, n: nat, sucs: seq<State>, first: nat,
                     u1: nat, a1: Attempt, u2: nat, a2: Attempt)
    requires Live(succ, trace, n, sucs, first, 0, u1, a1) && Live(succ, trace, n, sucs, first, 0, u2, a2)
    ensures u1 == u2
  {
  }

  /** `random_walk_rec(current, trace, length, successor_fn)`, drawing its
      random numbers from `draw` starting at the `k`-th; the second component
      is the number of draws used so far. */
  function WalkRec(succ: Successors, draw: Draw, current: State, trace: seq<State>, length: nat, k: nat): (r: (Attempt, nat))
    requires DrawsInRange(draw)
    requires trace != [] && trace[|trace| - 1] == current
    ensures Outcome(succ, trace, length, r.0)
    ensures length > 0 && succ(current) != [] && !r.0.Backtrack? ==>
              FirstLive(succ, trace, length, succ(current), draw(k, |succ(current)|), r.0)
    decreases length, 1, 0
  {
    if length == 0 then (Found(current, trace), k)
    else
      var sucs := succ(current);
      if |sucs| == 0 then
        DeadEndHere(succ, trace, length);
        (NoSuccessors, k)
      else
        var first := draw(k, |sucs|);
        var r := Try(succ, draw, trace, length, sucs, first, first, 0, k + 1);
        if r.0.Backtrack? then
          BacktrackCoversAll(succ, trace, length, sucs, first);
          (r.0, r.1)
        else
          assert Live(succ, trace, length, sucs, first, 0, r.2, r.0);
          (r.0, r.1)
  }

  /** The `while True` loop of `random_walk_rec`: candidate `now` is the
      `tried`-th index after `first`, taken circularly. The third component
      is the count, from `first`, of the candidate whose result is passed up
      (`|sucs|` after backtracking). */
  function Try(succ: Successors, draw: Draw, trace: seq<State>, length: nat, sucs: seq<State>,
               first: nat, now: nat, tried: nat, k: nat): (r: (Attempt, nat, nat))
    requires DrawsInRange(draw)
    requires trace != [] && length > 0 && sucs == succ(trace[|trace| - 1])
    requires first < |sucs| && tried < |sucs| && now == Circular(first, tried, |sucs|)
    ensures !r.0.Backtrack? ==> Outcome(succ, trace, length, r.0) && Live(succ, trace, length, sucs, first, tried, r.2, r.0)
    ensures r.0.Backtrack? ==> forall u :: tried <= u < |sucs| ==> Exhausted(succ, trace, sucs[Circular(first, u, |sucs|)], length)
    decreases length, 0, |sucs| - tried
  {
    var n := |sucs|;
    var sub := Child(succ, draw, trace, length, sucs[now], k);
    if !sub.0.Backtrack? then (sub.0, sub.1, tried)
    else
      var next := (now + 1) % n;
      NextIndex(first, tried, now, n);
      if next == first then
        Covered(succ, trace, length, sucs, first, tried);
        (Backtrack, sub.1, n)
      else
        var r := Try(succ, draw, trace, length, sucs, first, next, tried + 1, sub.1);
        if r.0.Backtrack? then
          Covered(succ, trace, length, sucs, first, tried);
          r
        else
          LiveEarlier(succ, trace, length, sucs, first, tried, r.2, r.0);
          r
  }

  /** An exhausted `tried`-th candidate extends the loop's choice from the
      `tried + 1`-th on to one from the `tried`-th on. */
  lemma LiveEarlier(succ: Successors, trace: seq<State>, length: nat, sucs: seq<State>, first: nat, tried: nat, u: nat, a: Attempt)
    requires first < |sucs| && tried < |sucs|
    requires Exhausted(succ, trace, sucs[Circular(first, tried, |sucs|)], length)
    requires Live(succ, trace, length, sucs, first, tried + 1, u, a)
    ensures Live(succ, trace, length, sucs, first, tried, u, a)
  {
  }

  /** Ruling out the `tried`-th candidate after every later one rules out
      all from the `tried`-th on. */
  lemma Covered(succ: Successors, trace: seq<State>, length: nat, sucs: seq<State>, first: nat, tried: nat)
    requires first < |sucs| && tried < |sucs|
    requires Exhausted(succ, trace, sucs[Circular(first, tried, |sucs|)], length)
    requires forall u :: tried + 1 <= u < |sucs| ==> Exhausted(succ, trace, sucs[Circular(first, u, |sucs|)], length)
    ensures forall u :: tried <= u < |sucs| ==> Exhausted(succ, trace, sucs[Circular(first, u, |sucs|)], length)
  {
  }

  /** One candidate of the loop body: skipped when already on the trace,
      otherwise the recursive call on `trace + [suc]` with one step fewer,
      whose result is passed up unless it is `None`. */
  function Child(succ: Successors, draw: Draw, trace: seq<State>, length: nat, suc: State, k: nat): (r: (Attempt, nat))
    requires DrawsInRange(draw)
    requires trace != [] && length > 0 && suc in succ(trace[|trace| - 1])
    ensures !r.0.Backtrack? ==> Outcome(succ, trace, length, r.0)
    ensures r.0.Backtrack? <==> Exhausted(succ, trace, suc, length)
    ensures r.0.Found? ==> |r.0.trace| > |trace| && r.0.trace[|trace|] == suc
    decreases length, 0, 0
  {
    if suc in trace then
      ViaChild(succ, trace, suc, length);
      (Backtrack, k)
    else
      var sub := WalkRec(succ, draw, suc, trace + [suc], length - 1, k);
      if sub.0.Found? then
        FoundExtends(succ, trace, suc, sub.0.trace, length);
        assert !NoWalkVia(succ, trace, suc, length);
        sub
      else if sub.0.Backtrack? then
        ViaChild(succ, trace, suc, length);
        sub
      else
        DeadEndBelow(succ, trace, suc, length);
        sub
  }

  /** The current state, the end of the trace, is itself a dead end. */
  lemma DeadEndHere(succ: Successors, trace: seq<State>, n: nat)
    requires trace != [] && n > 0 && succ(trace[|trace| - 1]) == []
    ensures ReachableDeadEnd(succ, trace, n)
  {
    assert trace[..|trace|] == trace;
    assert SimpleExtension(succ, trace, trace, 0);
  }

  /** A dead end within `n - 1` steps of `trace + [c]`, for a fresh successor
      `c`, lies within `n` steps of `trace`. */
  lemma DeadEndBelow(succ: Successors, trace: seq<State>, c: State, n: nat)
    requires trace != [] && n > 0 && c in succ(trace[|trace| - 1]) && c !in trace
    requires ReachableDeadEnd(succ, trace + [c], n - 1)
    ensures ReachableDeadEnd(succ, trace, n)
    ensures !NoDeadEndVia(succ, trace, c, n)
  {
    var path, m: nat :| m < n - 1 && SimpleExtension(succ, trace + [c], path, m) && succ(path[|path| - 1]) == [];
    FoundExtends(succ, trace, c, path, m + 1);
  }

  /** A simple extension of `trace + [c]` by `n - 1` steps, with `c` a fresh
      successor, is one of `trace` by `n` steps. */
  lemma FoundExtends(succ: Successors, trace: seq<State>, c: State, path: seq<State>, n: nat)
    requires trace != [] && n > 0 && c in succ(trace[|trace| - 1]) && c !in trace
    requires SimpleExtension(succ, trace + [c], path, n - 1)
    ensures SimpleExtension(succ, trace, path, n) && path[|trace|] == c
  {
    assert path[..|trace| + 1] == trace + [c];
    assert path[..|trace|] == (trace + [c])[..|trace|] == trace;
    assert path[|trace|] == c;
  }

  /** The first step of a simple extension by `n` steps is a fresh successor
      from which the rest is a simple extension by `n - 1` steps. */
  lemma FirstStep(succ: Successors, trace: seq<State>, path: seq<State>, n: nat)
    requires n > 0 && SimpleExtension(succ, trace, path, n)
    ensures path[|trace|] in succ(trace[|trace| - 1]) && path[|trace|] !in trace
    ensures SimpleExtension(succ, trace + [path[|trace|]], path, n - 1)
  {
    var c := path[|trace|];
    assert path[..|trace| + 1] == path[..|trace|] + [c] == trace + [c];
    assert path[|trace| - 1] == trace[|trace| - 1];
  }

  /** When the walk from `trace + [c]` (or `c` being on the trace already)
      rules out every extension and every dead end, no extension of `trace`
      and no dead end in reach starts with `c`. */
  lemma ViaChild(succ: Successors, trace: seq<State>, c: State, n: nat)
    requires trace != [] && n > 0
    requires c in trace || (NoWalk(succ, trace + [c], n - 1) && !ReachableDeadEnd(succ, trace + [c], n - 1))
    ensures Exhausted(succ, trace, c, n)
  {
    forall path | SimpleExtension(succ, trace, path, n)
      ensures path[|trace|] != c
    {
      FirstStep(succ, trace, path, n);
    }
    forall path, m: nat | m < n && SimpleExtension(succ, trace, path, m) && |trace| < |path| && path[|trace|] == c
      ensures succ(path[|path| - 1]) != []
    {
      FirstStep(succ, trace, path, m);
    }
  }

  /** The circular index: one step on from `now` is `tried + 1` after
      `first`, and it is back at `first` exactly when every index has been
      tried. */
  lemma NextIndex(first: nat, tried: nat, now: nat, n: nat)
    requires first < n && tried < n && now == Circular(first, tried, n)
    ensures (now + 1) % n == first <==> tried + 1 == n
    ensures tried + 1 < n ==> (now + 1) % n == Circular(first, tried + 1, n)
  {
    ModNext(now, n);
  }

  lemma ModNext(now: nat, n: nat)
    requires now < n
    ensures (now + 1) % n == if now + 1 < n then now + 1 else 0
  {
    if now + 1 < n {
      assert (now + 1) / n == 0;
    } else {
      assert (now + 1) / n == 1;
    }
  }

  /** Having tried every index circularly from `first`, every successor has
      been ruled out, so no extension exists. */
  lemma BacktrackCoversAll(succ: Successors, trace: seq<State>, n: nat, sucs: seq<State>, first: nat)
    requires trace != [] && n > 0 && sucs == succ(trace[|trace| - 1]) && first < |sucs|
    requires forall u :: 0 <= u < |sucs| ==> Exhausted(succ, trace, sucs[Circular(first, u, |sucs|)], n)
    ensures NoWalk(succ, trace, n) && !ReachableDeadEnd(succ, trace, n)
  {
    forall idx | 0 <= idx < |sucs|
      ensures Exhausted(succ, trace, sucs[idx], n)
    {
      var u := if idx >= first then idx - first else idx + |sucs| - first;
      assert Circular(first, u, |sucs|) == idx;
    }
    forall path | SimpleExtension(succ, trace, path, n)
      ensures false
    {
      FirstStep(succ, trace, path, n);
    }
    forall path, m: nat | m < n && SimpleExtension(succ, trace, path, m)
      ensures succ(path[|path| - 1]) != []
    {
      if m == 0 {
        assert path == path[..|trace|] == trace;
      } else {
        FirstStep(succ, trace, path, m);
      }
    }
  }

  /** The outcome of `random_walk`. It loops until an attempt succeeds;
      `fuel` bounds the number of attempts. */
  datatype WalkResult = Walked(state: State, trace: seq<State>) | Crashed | OutOfFuel

  /** The restart loop, from the `k`-th draw on. */
  function Walk(succ: Successors, draw: Draw, init: State, length: nat, fuel: nat, k: nat): (r: WalkResult)
    requires DrawsInRange(draw)
    ensures r.Walked? ==> SimpleExtension(succ, [init], r.trace, length) && r.state == r.trace[|r.trace| - 1]
    ensures r.Crashed? ==> ReachableDeadEnd(succ, [init], length)
    ensures fuel > 0 && r.OutOfFuel? ==> NoWalk(succ, [init], length) && !ReachableDeadEnd(succ, [init], length)
    decreases fuel
  {
    if fuel == 0 then OutOfFuel
    else
      var (a, k') := WalkRec(succ, draw, init, [init], length, k);
      match a
      case Found(s, t) => Walked(s, t)
      case NoSuccessors => Crashed
      case Backtrack => Walk(succ, draw, init, length, fuel - 1, k')
  }

  /** `random_walk(init_c, length, successor_fn)` with at most `fuel`
      attempts. */
  function RandomWalkRun(succ: Successors, draw: Draw, init: State, length: nat, fuel: nat): (r: WalkResult)
    requires DrawsInRange(draw)
    ensures r.Walked? ==> SimpleExtension(succ, [init], r.trace, length) && r.state == r.trace[|r.trace| - 1]
    ensures r.Crashed? ==> ReachableDeadEnd(succ, [init], length)
    ensures fuel > 0 && r.OutOfFuel? ==> NoWalk(succ, [init], length) && !ReachableDeadEnd(succ, [init], length)
  {
    Walk(succ, draw, init, length, fuel, 0)
  }

  /** With `length = 0` the walk returns the initial state at once. */
  lemma ZeroLength(succ: Successors, draw: Draw, init: State, fuel: nat)
    requires DrawsInRange(draw) && fuel > 0
    ensures RandomWalkRun(succ, draw, init, 0, fuel) == Walked(init, [init])
  {
  }

  /** Restarts never help: when a simple path exists, the first attempt
      already finds one (or crashes), so one attempt of fuel suffices; when
      none exists, no attempt returns a state. */
  lemma RestartsNeverHelp(succ: Successors, draw: Draw, init: State, length: nat, fuel: nat, k: nat)
    requires DrawsInRange(draw) && fuel > 0
    ensures (exists path :: SimpleExtension(succ, [init], path, length)) ==> !Walk(succ, draw, init, length, fuel, k).OutOfFuel?
    ensures (forall path :: !SimpleExtension(succ, [init], path, length)) ==> !Walk(succ, draw, init, length, fuel, k).Walked?
  {
  }

  /** The restart loop runs out of fuel exactly when no simple path of
      `length` steps exists and no state without successors ends a shorter
      one: then every attempt backtracks and `random_walk` loops forever.
      Otherwise an attempt returns a state or crashes. */
  lemma {:induction false} LoopsForever(succ: Successors, draw: Draw, init: State, length: nat, fuel: nat, k: nat)
    requires DrawsInRange(draw) && fuel > 0
    ensures Walk(succ, draw, init, length, fuel, k).OutOfFuel?
        <==> NoWalk(succ, [init], length) && !ReachableDeadEnd(succ, [init], length)
    decreases fuel
  {
    var (a, k') := WalkRec(succ, draw, init, [init], length, k);
    if a.Backtrack? && fuel > 1 {
      LoopsForever(succ, draw, init, length, fuel - 1, k');
    }
  }

  /** When no dead end lies within `length` steps along a simple path, the
      search is complete: an attempt finds a walk iff a simple path of
      exactly `length` steps exists. */
  lemma AttemptComplete(succ: Successors, draw: Draw, init: State, length: nat, k: nat)
    requires DrawsInRange(draw) && !ReachableDeadEnd(succ, [init], length)
    ensures WalkRec(succ, draw, init, [init], length, k).0.Found?
        <==> exists path :: SimpleExtension(succ, [init], path, length)
  {
  }

  // ------------------------------------------------------------- finding

  /** What `random_walk_rec` does as written: the module never imports
      `numpy as np`, so the trace test `np.any(...)` on the first candidate
      raises `NameError`, which `except AssertionError` does not catch. */
  datatype AsWritten = Returned(state: State) | ValueError | NameError

  function WalkRecAsWritten(succ: Successors, draw: Draw, current: State, trace: seq<State>, length: nat, k: nat): (r: AsWritten)
    requires DrawsInRange(draw)
    ensures length == 0 <==> r == Returned(current)
    ensures length > 0 ==> (r == ValueError <==> succ(current) == [])
    ensures length > 0 && succ(current) != [] ==> r == NameError
  {
    if length == 0 then Returned(current)
    else
      var sucs := succ(current);
      if |sucs| == 0 then ValueError
      else
        var first := draw(k, |sucs|);
        NameError
  }

  /** A two-state line `[0] -> [1]`: a simple path of one step exists, the
      model's attempt finds it, and the code as written crashes instead. */
  lemma CrashesDespitePath()
    ensures SimpleExtension(s => [[1]], [[0]], [[0], [1]], 1)
    ensures WalkRec(s => [[1]], (k, n) => 0, [0], [[0]], 1, 0).0 == Found([1], [[0], [1]])
    ensures WalkRecAsWritten(s => [[1]], (k, n) => 0, [0], [[0]], 1, 0) == NameError
  {
    var succ: Successors := s => [[1]];
    var path := [[0], [1]];
    assert path[..1] == [[0]];
    assert path[1] !in path[..1];
  }
}

=== FILE: reservoir.dfy ===
/** `reservoir_sampling` of generate-dijkstra.py: algorithm R over the
    sequence a generator produces, with the random draws `random.randrange(i)`
    supplied as the sequence `draws`. */
module Reservoir {

  import opened StateSpace

  /** `[c for c, _ in zip(generator, range(limit))]` as Python evaluates it:
      `zip` pulls from the generator before it asks the range, so once `limit`
      elements are taken it pulls one more and drops it. The result is the
      taken prefix and what is left of the generator. */
  function ZipTake<T>(gen: seq<T>, limit: nat): (r: (seq<T>, seq<T>))
    ensures |gen| <= limit ==> r == (gen, [])
    ensures |gen| > limit ==> r == (gen[..limit], gen[limit + 1..])
  {
    if gen == [] then ([], [])
    else if limit == 0 then ([], gen[1..])
    else
      var (taken, rest) := ZipTake(gen[1..], limit - 1);
      assert |gen| > limit ==> [gen[0]] + gen[1..][..limit - 1] == gen[..limit] && gen[1..][limit..] == gen[limit + 1..];
      assert [gen[0]] + gen[1..] == gen;
      ([gen[0]] + taken, rest)
  }

  /** The position of the last draw equal to `s`, if any: the later element
      that was written into slot `s` last. */
  function LastHit(draws: seq<nat>, s: nat): (r: Option<nat>)
    ensures r.Some? ==> r.value < |draws| && draws[r.value] == s
    ensures r.Some? ==> forall u :: r.value < u < |draws| ==> draws[u] != s
    ensures r.None? ==> forall u :: 0 <= u < |draws| ==> draws[u] != s
  {
    if draws == [] then None
    else if draws[|draws| - 1] == s then Some(|draws| - 1)
    else LastHit(draws[..|draws| - 1], s)
  }

  /** Peeling the first draw off: the last hit among the rest, shifted, or
      the first draw itself. */
  lemma LastHitFront(draws: seq<nat>, s: nat)
    requires draws != []
    ensures LastHit(draws, s) == match LastHit(draws[1..], s)
      case Some(u) => Some(u + 1)
      case None => if draws[0] == s then Some(0) else None
  {
    assert forall u :: 0 <= u < |draws| - 1 ==> draws[1..][u] == draws[u + 1];
  }

  /** Slot `s` of a reservoir that started as `results` after the later
      elements `rest` were offered with the given draws. */
  function SlotAfter<T>(results: seq<T>, rest: seq<T>, draws: seq<nat>, s: nat): T
    requires s < |results| && |draws| <= |rest|
  {
    match LastHit(draws, s)
    case None => results[s]
    case Some(u) => rest[u]
  }

  /** Every draw of the `t`-th later element is below the counter `i + 1 + t`
      it is drawn against. */
  predicate DrawsBelow(draws: seq<nat>, i: nat)
  {
    forall t :: 0 <= t < |draws| ==> draws[t] < i + 1 + t
  }

  /** The `for result in generator` loop: the counter `i` goes up by one per
      element, `step` is advanced by the `i % step` bookkeeping (which no
      slot ever reads), and slot `j = draws[t]` is overwritten iff `j < limit`. */
  function Replace<T>(results: seq<T>, rest: seq<T>, draws: seq<nat>, limit: nat, i: nat, step: nat): (r: seq<T>)
    requires step >= 1 && |draws| == |rest| && DrawsBelow(draws, i)
    requires rest == [] || |results| == limit
    ensures |r| == |results|
    ensures forall s :: 0 <= s < |results| ==> r[s] == SlotAfter(results, rest, draws, s)
    decreases |rest|
  {
    if rest == [] then results
    else
      var i' := i + 1;
      var step' := if i' % step == 0 && i' == step * 10 then i' else step;
      var j := draws[0];
      var results' := if j < limit then results[j := rest[0]] else results;
      assert DrawsBelow(draws[1..], i') by {
        forall t | 0 <= t < |draws| - 1
          ensures draws[1..][t] < i' + 1 + t
        {
          assert draws[t + 1] < i + 1 + (t + 1);
        }
      }
      var r := Replace(results', rest[1..], draws[1..], limit, i', step');
      forall s | 0 <= s < |results|
        ensures r[s] == SlotAfter(results, rest, draws, s)
      {
        LastHitFront(draws, s);
      }
      r
  }

  /** The `step` bookkeeping has no effect on the reservoir. */
  lemma StepHasNoEffect<T>(results: seq<T>, rest: seq<T>, draws: seq<nat>, limit: nat, i: nat, step1: nat, step2: nat)
    requires step1 >= 1 && step2 >= 1 && |draws| == |rest| && DrawsBelow(draws, i)
    requires rest == [] || |results| == limit
    ensures Replace(results, rest, draws, limit, i, step1) == Replace(results, rest, draws, limit, i, step2)
  {
    var a := Replace(results, rest, draws, limit, i, step1);
    var b := Replace(results, rest, draws, limit, i, step2);
    assert forall s :: 0 <= s < |results| ==> a[s] == b[s];
  }

  /** Number of elements the loop sees: those after the taken prefix and the
      one `zip` dropped. */
  function LaterCount(n: nat, limit: nat): nat
  {
    if n > limit then n - limit - 1 else 0
  }

  /** `random.randrange(i)` returns a value in `[0, i)` for each later
      element. */
  predicate ValidDraws(n: nat, limit: nat, draws: seq<nat>)
  {
    |draws| == LaterCount(n, limit) && DrawsBelow(draws, limit)
  }

  function Min(a: nat, b: nat): nat
  {
    if a <= b then a else b
  }

  /** `reservoir_sampling(generator, limit)`, with `None` for `limit=None`.
      The reservoir starts as the first `min(limit, n)` elements; slot `s`
      ends up holding the last later element whose draw was `s`, or its
      original element. The later elements start at index `limit + 1`:
      element `limit` was pulled by `zip` and is in no slot. */
  function ReservoirSampling<T>(gen: seq<T>, limit: Option<nat>, draws: seq<nat>): (r: seq<T>)
    requires limit.Some? ==> ValidDraws(|gen|, limit.value, draws)
    ensures limit.None? ==> r == gen
    ensures limit.Some? ==> |r| == Min(limit.value, |gen|)
    ensures limit.Some? ==> forall s :: 0 <= s < |r| ==>
              r[s] == match LastHit(draws, s)
                      case None => gen[s]
                      case Some(u) => gen[limit.value + 1 + u]
  {
    match limit
    case None => gen
    case Some(k) =>
      var (taken, rest) := ZipTake(gen, k);
      var r := Replace(taken, rest, draws, k, k, 1);
      forall s | 0 <= s < |r|
        ensures LastHit(draws, s).Some? ==> rest[LastHit(draws, s).value] == gen[k + 1 + LastHit(draws, s).value]
      {
      }
      r
  }

  /** The counter: the `t`-th element the loop sees is element `limit + 1 + t`
      of the generator and is drawn against `i = limit + 1 + t`, so `i`
      reaches `limit + 1` only at the `limit + 2`-nd element. */
  lemma CounterLagsByOne<T>(gen: seq<T>, limit: nat, t: nat)
    requires t < LaterCount(|gen|, limit)
    ensures ZipTake(gen, limit).1[t] == gen[limit + 1 + t]
  {
  }

  // ------------------------------------------------------------- finding

  /** As written: the element `zip` drops is never in the result, whatever
      the draws, as long as it differs from every other element. */
  lemma {:induction false} DroppedElementNeverSampled<T>(gen: seq<T>, limit: nat, draws: seq<nat>)
    requires Distinct(gen) && |gen| > limit
    requires ValidDraws(|gen|, limit, draws)
    ensures gen[limit] !in ReservoirSampling(gen, Some(limit), draws)
  {
    var r := ReservoirSampling(gen, Some(limit), draws);
    forall s | 0 <= s < |r|
      ensures r[s] != gen[limit]
    {
      match LastHit(draws, s)
      case None =>
        assert r[s] == gen[s] && s < limit;
      case Some(u) =>
        assert r[s] == gen[limit + 1 + u];
    }
  }

  /** A concrete instance: from `[10, 20, 30]` with `limit=1`, `20` is never
      the sample, although algorithm R must be able to return any element. */
  lemma TwentyIsNeverSampled(draws: seq<nat>)
    requires ValidDraws(3, 1, draws)
    ensures ReservoirSampling([10, 20, 30], Some(1), draws) != [20]
  {
    assert Distinct([10, 20, 30]);
    DroppedElementNeverSampled([10, 20, 30], 1, draws);
    assert [10, 20, 30][1] == 20;
  }

  /** The evidently intended algorithm R: the prefix is taken without losing
      an element (as `itertools.islice` would), and the loop starts at element
      `limit` with counter `limit + 1`. */
  function ReservoirIntended<T>(gen: seq<T>, limit: nat, draws: seq<nat>): (r: seq<T>)
    requires |draws| == (if |gen| > limit then |gen| - limit else 0) && DrawsBelow(draws, limit)
    ensures |r| == Min(limit, |gen|)
    ensures forall s :: 0 <= s < |r| ==>
              r[s] == match LastHit(draws, s)
                      case None => gen[s]
                      case Some(u) => gen[limit + u]
  {
    if |gen| <= limit then gen
    else Replace(gen[..limit], gen[limit..], draws, limit, limit, 1)
  }

  /** Intended behaviour: with `limit > 0`, every element of the input is in
      the sample for some choice of draws. */
  lemma EveryElementEligible<T>(gen: seq<T>, limit: nat, e: nat) returns (draws: seq<nat>)
    requires 0 < limit && e < |gen|
    ensures |draws| == (if |gen| > limit then |gen| - limit else 0) && DrawsBelow(draws, limit)
    ensures gen[e] in ReservoirIntended(gen, limit, draws)
  {
    var n := if |gen| > limit then |gen| - limit else 0;
    if e < limit {
      draws := seq(n, t => limit);
      var r := ReservoirIntended(gen, limit, draws);
      assert LastHit(draws, e).None?;
      assert r[e] == gen[e];
    } else {
      draws := seq(n, t => if t == e - limit then 0 else limit);
      var r := ReservoirIntended(gen, limit, draws);
      assert LastHit(draws, 0) == Some(e - limit) by {
        LastHitIs(draws, 0, e - limit);
      }
      assert r[0] == gen[e];
    }
  }

  lemma LastHitIs(draws: seq<nat>, s: nat, u: nat)
    requires u < |draws| && draws[u] == s
    requires forall v :: u < v < |draws| ==> draws[v] != s
    ensures LastHit(draws, s) == Some(u)
  {
  }
}

=== FILE: statespace.dfy ===
/** Shared vocabulary of the search and sampling engine: states, successor
    functions, and the breadth-first layers of the implicit state graph. */
module StateSpace {

  /** A state is a fixed-length vector of small integers; two states are the
      same node iff they are element-wise equal, which is Dafny's value
      equality on sequences. */
  type State = seq<int>

  /** The domain's successor function: a pure, deterministic map from a state
      to the ordered list of its successors. */
  type Successors = State -> seq<State>

  datatype Option<T> = None | Some(value: T)

  /** No element occurs twice. */
  predicate Distinct<T(==)>(xs: seq<T>)
  {
    forall i, j :: 0 <= i < j < |xs| ==> xs[i] != xs[j]
  }

  /** All successors of all states of `p`. */
  function Image(p: set<State>, succ: Successors): (r: set<State>)
    ensures forall s, c :: s in p && c in succ(s) ==> c in r
    ensures forall c :: c in r ==> exists s :: s in p && c in succ(s)
  {
    set s, c | s in p && c in succ(s) :: c
  }

  /** The states reachable from `init` in at most `d` transitions. */
  function Reach(init: State, succ: Successors, d: nat): (r: set<State>)
    ensures init in r
  {
    if d == 0 then {init}
    else
      var p := Reach(init, succ, d - 1);
      p + Image(p, succ)
  }

  /** `s` is at breadth-first distance exactly `d` from `init`. */
  predicate AtDistance(init: State, succ: Successors, s: State, d: nat)
  {
    s in Reach(init, succ, d) && (d == 0 || s !in Reach(init, succ, d - 1))
  }

  lemma {:induction false} ReachMonotone(init: State, succ: Successors, d1: nat, d2: nat)
    requires d1 <= d2
    ensures Reach(init, succ, d1) <= Reach(init, succ, d2)
    decreases d2 - d1
  {
    if d1 < d2 {
      ReachMonotone(init, succ, d1, d2 - 1);
      ReachGrows(init, succ, d2 - 1);
    }
  }

  /** One more step reaches at least as much. */
  lemma ReachGrows(init: State, succ: Successors, d: nat)
    ensures Reach(init, succ, d) <= Reach(init, succ, d + 1)
  {
    var p := Reach(init, succ, d);
    assert Reach(init, succ, d + 1) == p + Image(p, succ);
  }

  /** One transition from a state within `d` steps lands within `d + 1`. */
  lemma {:induction false} ReachStep(init: State, succ: Successors, d: nat, s: State, c: State)
    requires s in Reach(init, succ, d) && c in succ(s)
    ensures c in Reach(init, succ, d + 1)
  {
  }

  /** A state has at most one breadth-first distance. */
  lemma {:induction false} AtDistanceUnique(init: State, succ: Successors, s: State, d1: nat, d2: nat)
    requires AtDistance(init, succ, s, d1) && AtDistance(init, succ, s, d2)
    ensures d1 == d2
  {
    if d1 < d2 {
      Below(init, succ, s, d1, d2);
    } else if d2 < d1 {
      Below(init, succ, s, d2, d1);
    }
  }

  lemma Below(init: State, succ: Successors, s: State, d1: nat, d2: nat)
    requires d1 < d2 && s in Reach(init, succ, d1)
    ensures s in Reach(init, succ, d2 - 1)
  {
    ReachMonotone(init, succ, d1, d2 - 1);
  }

  /** Every state within `d` steps is at some exact distance `e <= d`. */
  lemma {:induction false} HasDistance(init: State, succ: Successors, s: State, d: nat) returns (e: nat)
    requires s in Reach(init, succ, d)
    ensures e <= d && AtDistance(init, succ, s, e)
  {
    if d == 0 || s !in Reach(init, succ, d - 1) {
      e := d;
    } else {
      e := HasDistance(init, succ, s, d - 1);
    }
  }

  /** A set that holds `init` and is closed under `succ` holds every
      reachable state. */
  lemma {:induction false} ClosedSetHoldsReach(init: State, succ: Successors, keys: set<State>, d: nat)
    requires init in keys
    requires forall s, c :: s in keys && c in succ(s) ==> c in keys
    ensures Reach(init, succ, d) <= keys
  {
    if d > 0 {
      ClosedSetHoldsReach(init, succ, keys, d - 1);
    }
  }
}

=== FILE: uniformcost.dfy ===
/** `dijkstra` of latplan/util/search.py: uniform-cost search with unit step
    costs over the implicit state graph, with a close table of nodes
    `{g, open, reopen, parent}`, lazy deletion of stale frontier entries,
    reopening, a cut-off once a popped cost exceeds `length`, and the
    `include_nonleaf` yield policy. The lazy generator is modelled by the
    finite sequence of states it yields. */
module UniformCost {

  import opened StateSpace
  import opened Frontier

  /** A close-table entry. */
  datatype Node = Node(g: nat, open: bool, reopen: bool, parent: Option<State>)

  type Table = map<State, Node>

  datatype Search = Search(table: Table, frontier: multiset<Entry>)

  /** The recorded cost of every state in the table. */
  function Costs(t: Table): (r: map<State, nat>)
    ensures r.Keys == t.Keys
    ensures forall s :: s in t ==> r[s] == t[s].g
  {
    map s | s in t :: t[s].g
  }

  /** The states the table marks as no longer open. */
  function Closed(t: Table): (r: set<State>)
    ensures forall s :: s in r <==> s in t && !t[s].open
  {
    set s | s in t && !t[s].open
  }

  /** The table and frontier before the first pop: only the initial state,
      at cost 0, open, never reopened, without parent, queued at priority 0. */
  function Start(init: State): (r: Search)
    ensures r.table.Keys == {init} && r.frontier == multiset{(0, init)}
    ensures r.table[init] == Node(0, true, false, None)
  {
    Search(map[init := Node(0, true, false, None)], multiset{(0, init)})
  }

  /** One successor `c` of `current` offered at cost `gnew`: inserted when
      new, reopened with the lower cost when that is strictly lower than its
      recorded one, left alone otherwise. */
  function Relax(s: Search, current: State, gnew: nat, c: State): (r: Search)
    ensures r.table.Keys == s.table.Keys + {c}
    ensures forall x :: x in s.table ==> r.table[x].g <= s.table[x].g
    ensures forall x :: x in s.table && x != c ==> r.table[x] == s.table[x]
    ensures r.table[c].g <= gnew
    ensures s.frontier <= r.frontier
    ensures c in s.table && s.table[c].g <= gnew ==> r == s
    ensures c in s.table && gnew < s.table[c].g ==> r.table[c] == Node(gnew, true, true, Some(current))
                                                    && r.frontier == s.frontier + multiset{(gnew, c)}
    ensures c !in s.table ==> r.table[c] == Node(gnew, true, false, Some(current))
                              && r.frontier == s.frontier + multiset{(gnew, c)}
  {
    if c in s.table then
      if gnew < s.table[c].g then
        Search(s.table[c := Node(gnew, true, true, Some(current))], s.frontier + multiset{(gnew, c)})
      else s
    else
      Search(s.table[c := Node(gnew, true, false, Some(current))], s.frontier + multiset{(gnew, c)})
  }

  /** The `for succ in successor_fn(current)` loop. */
  function Expand(s: Search, current: State, gnew: nat, sucs: seq<State>): (r: Search)
    ensures r.table.Keys == s.table.Keys + set c | c in sucs
    ensures forall x :: x in s.table ==> r.table[x].g <= s.table[x].g
    ensures forall x :: x in s.table && x !in sucs ==> r.table[x] == s.table[x]
    ensures forall c :: c in sucs ==> r.table[c].g <= gnew
    ensures s.frontier <= r.frontier
    decreases |sucs|
  {
    if sucs == [] then s
    else Expand(Relax(s, current, gnew, sucs[0]), current, gnew, sucs[1..])
  }

  /** When no recorded cost exceeds `gnew`, expanding only inserts: old
      entries keep their nodes, and each new one is open at `gnew` with
      `current` as parent and a frontier entry of its own. */
  lemma {:induction false} ExpandInserts(s: Search, current: State, gnew: nat, sucs: seq<State>)
    requires forall x :: x in s.table ==> s.table[x].g <= gnew
    ensures forall x :: x in s.table ==> Expand(s, current, gnew, sucs).table[x] == s.table[x]
    ensures forall x :: x in Expand(s, current, gnew, sucs).table && x !in s.table ==>
              Expand(s, current, gnew, sucs).table[x] == Node(gnew, true, false, Some(current)) &&
              (gnew, x) in Expand(s, current, gnew, sucs).frontier && x in sucs
    ensures forall e :: e in Expand(s, current, gnew, sucs).frontier ==>
              e in s.frontier || (e.0 == gnew && e.1 in Expand(s, current, gnew, sucs).table && e.1 !in s.table)
    decreases |sucs|
  {
    if sucs != [] {
      var s1 := Relax(s, current, gnew, sucs[0]);
      ExpandInserts(s1, current, gnew, sucs[1..]);
      var r := Expand(s, current, gnew, sucs);
      assert r == Expand(s1, current, gnew, sucs[1..]);
      forall x | x in r.table && x !in s.table
        ensures x in sucs
      {
        if x !in s1.table {
          assert x in sucs[1..];
        }
      }
    }
  }

  /** Marks `x` closed. */
  function Close(t: Table, x: State): (r: Table)
    requires x in t
    ensures r.Keys == t.Keys
    ensures Closed(r) == Closed(t) + {x}
    ensures forall y :: y in t ==> r[y].g == t[y].g && r[y].reopen == t[y].reopen && r[y].parent == t[y].parent
    ensures forall y :: y in t && y != x ==> r[y] == t[y]
  {
    t[x := t[x].(open := false)]
  }

  /** `n` keeps every entry of `t`, with `x` marked closed. */
  predicate KeepsOld(t: Table, x: State, n: Table)
  {
    x in t && forall y :: y in t ==> y in n && n[y] == Close(t, x)[y]
  }

  /** The yield policy: `g == length`, or `g < length` under `include_nonleaf`. */
  predicate Wanted(g: nat, length: int, includeNonleaf: bool)
  {
    g == length || (g < length && includeNonleaf)
  }

  /** The table and frontier after popping open `(p, x)`: `x` is closed and
      its successors are offered at `p + 1`. */
  function Next(s: Search, p: nat, x: State, succ: Successors): Search
    requires x in s.table
  {
    Expand(Search(Close(s.table, x), s.frontier - multiset{(p, x)}), x, p + 1, succ(x))
  }

  /** The states yielded after popping open `(p, x)`. */
  function Log(yielded: seq<State>, p: nat, x: State, length: int, includeNonleaf: bool): seq<State>
  {
    if Wanted(p, length, includeNonleaf) then yielded + [x] else yielded
  }

  // ------------------------------------------------------- loop invariant

  /** Closed states are recorded at their exact distance, never beyond the
      cut-off. */
  ghost predicate Exact(init: State, succ: Successors, length: int, t: Table)
  {
    forall x :: x in t && !t[x].open ==> AtDistance(init, succ, x, t[x].g) && t[x].g <= length
  }

  /** No frontier entry is below the last popped cost, and no recorded cost
      is more than one above it. */
  predicate Monotone(t: Table, f: multiset<Entry>, last: nat)
  {
    AllAtLeast(f, last) && forall x :: x in t ==> t[x].g <= last + 1
  }

  /** No node was ever reopened, only the initial state lacks a parent, and
      every parent is a closed predecessor one step closer. */
  ghost predicate Parents(init: State, succ: Successors, t: Table)
  {
    forall x :: x in t ==>
      !t[x].reopen &&
      (x == init ==> t[x].parent == None) &&
      (x != init ==> t[x].parent.Some? && t[x].parent.value in t && !t[t[x].parent.value].open &&
                     x in succ(t[x].parent.value) && t[x].g == t[t[x].parent.value].g + 1)
  }

  /** The yielded states are distinct closed states in order of cost, and a
      closed state was yielded iff the policy wants its cost. */
  predicate Logged(t: Table, yielded: seq<State>, length: int, includeNonleaf: bool, last: nat)
  {
    Distinct(yielded) &&
    (forall i :: 0 <= i < |yielded| ==> yielded[i] in t && !t[yielded[i]].open && t[yielded[i]].g <= last) &&
    (forall i, j :: 0 <= i < j < |yielded| ==> t[yielded[i]].g <= t[yielded[j]].g) &&
    (forall x :: x in t && !t[x].open ==> (x in yielded <==> Wanted(t[x].g, length, includeNonleaf)))
  }

  ghost predicate Inv(init: State, succ: Successors, length: int, includeNonleaf: bool,
                      s: Search, last: nat, yielded: seq<State>)
  {
    Layered(init, succ, Costs(s.table), Closed(s.table), s.frontier) &&
    Exact(init, succ, length, s.table) &&
    Monotone(s.table, s.frontier, last) &&
    Parents(init, succ, s.table) &&
    Logged(s.table, yielded, length, includeNonleaf, last)
  }

  lemma StartInv(init: State, succ: Successors, length: int, includeNonleaf: bool)
    ensures Inv(init, succ, length, includeNonleaf, Start(init), 0, [])
  {
    var s := Start(init);
    assert Costs(s.table) == map[init := 0];
    assert Closed(s.table) == {};
  }

  /** A stale entry (its state already closed) is dropped and nothing else
      changes. */
  lemma StaleStep(init: State, succ: Successors, length: int, includeNonleaf: bool,
                  s: Search, last: nat, yielded: seq<State>, e: Entry)
    requires Inv(init, succ, length, includeNonleaf, s, last, yielded)
    requires e in s.frontier && e.1 in s.table && !s.table[e.1].open
    ensures Inv(init, succ, length, includeNonleaf, Search(s.table, s.frontier - multiset{e}), last, yielded)
  {
    var f := s.frontier - multiset{e};
    var g := Costs(s.table);
    forall y | y in g && y !in Closed(s.table)
      ensures (g[y], y) in f
    {
      assert (g[y], y) in s.frontier;
    }
  }

  /** The popped open state is at its exact distance, at least the last
      popped cost. */
  lemma PopFacts(init: State, succ: Successors, length: int, includeNonleaf: bool,
                 s: Search, last: nat, yielded: seq<State>, p: nat, x: State)
    requires Inv(init, succ, length, includeNonleaf, s, last, yielded)
    requires IsMin(s.frontier, (p, x)) && x in s.table && s.table[x].open
    ensures s.table[x].g == p && AtDistance(init, succ, x, p) && last <= p
    ensures AllAtLeast(s.frontier - multiset{(p, x)}, p)
    ensures forall y :: y in s.table ==> s.table[y].g <= p + 1
  {
    PopIsExact(init, succ, Costs(s.table), Closed(s.table), s.frontier, (p, x));
  }

  /** The frontier entries other than the popped one: the open states other
      than `x` are still queued. */
  lemma QueuedAfterPop(s: Search, p: nat, x: State)
    requires Queued(Costs(s.table), Closed(s.table), s.frontier) && x in s.table
    ensures forall y :: y in s.table && s.table[y].open && y != x ==> (s.table[y].g, y) in s.frontier - multiset{(p, x)}
  {
    forall y | y in s.table && s.table[y].open && y != x
      ensures (s.table[y].g, y) in s.frontier - multiset{(p, x)}
    {
      assert (Costs(s.table)[y], y) in s.frontier;
    }
  }

  /** Expanding the popped state only inserts new nodes. */
  lemma NextInserts(s: Search, p: nat, x: State, succ: Successors)
    requires x in s.table && forall y :: y in s.table ==> s.table[y].g <= p + 1
    ensures KeepsOld(s.table, x, Next(s, p, x, succ).table)
    ensures forall y :: y in Next(s, p, x, succ).table && y !in s.table ==>
              Next(s, p, x, succ).table[y] == Node(p + 1, true, false, Some(x)) &&
              (p + 1, y) in Next(s, p, x, succ).frontier && y in succ(x)
    ensures forall e :: e in Next(s, p, x, succ).frontier ==>
              e in s.frontier - multiset{(p, x)} || (e.0 == p + 1 && e.1 in Next(s, p, x, succ).table && e.1 !in s.table)
    ensures s.frontier - multiset{(p, x)} <= Next(s, p, x, succ).frontier
    ensures Next(s, p, x, succ).table.Keys == s.table.Keys + set c | c in succ(x)
    ensures forall c :: c in succ(x) ==> Next(s, p, x, succ).table[c].g <= p + 1
  {
    ExpandInserts(Search(Close(s.table, x), s.frontier - multiset{(p, x)}), x, p + 1, succ(x));
  }

  /** One open pop at `p <= length` keeps the invariant, closes exactly `x`,
      and yields `x` iff the policy wants `p`. */
  lemma OpenStep(init: State, succ: Successors, length: int, includeNonleaf: bool,
                 s: Search, last: nat, yielded: seq<State>, p: nat, x: State)
    requires Inv(init, succ, length, includeNonleaf, s, last, yielded)
    requires IsMin(s.frontier, (p, x)) && x in s.table && s.table[x].open && p <= length
    ensures Inv(init, succ, length, includeNonleaf, Next(s, p, x, succ), p, Log(yielded, p, x, length, includeNonleaf))
    ensures Closed(Next(s, p, x, succ).table) == Closed(s.table) + {x} && x !in Closed(s.table)
    ensures AtDistance(init, succ, x, p)
  {
    PopFacts(init, succ, length, includeNonleaf, s, last, yielded, p, x);
    NextInserts(s, p, x, succ);
    QueuedAfterPop(s, p, x);
    var n := Next(s, p, x, succ);
    NextClosed(s, p, x, succ);
    NextLayered(init, succ, s, p, x);
    NextExact(init, succ, length, s, p, x);
    NextParents(init, succ, s, p, x);
    NextLogged(s, yielded, length, includeNonleaf, last, p, x, succ);
  }

  /** What one open pop does to the table and the yields: nothing recorded
      is lost, no recorded cost changes, and at most `x` is yielded. */
  lemma OpenEffects(s: Search, p: nat, x: State, succ: Successors, yielded: seq<State>, length: int, includeNonleaf: bool)
    requires x in s.table && s.table[x].open && forall y :: y in s.table ==> s.table[y].g <= p + 1
    ensures s.table.Keys <= Next(s, p, x, succ).table.Keys
    ensures forall y :: y in s.table ==> Next(s, p, x, succ).table[y].g == s.table[y].g
    ensures Log(yielded, p, x, length, includeNonleaf) == yielded ||
            (|Log(yielded, p, x, length, includeNonleaf)| == |yielded| + 1 &&
             Log(yielded, p, x, length, includeNonleaf)[..|yielded|] == yielded &&
             Log(yielded, p, x, length, includeNonleaf)[|yielded|] == x)
  {
    NextInserts(s, p, x, succ);
  }

  lemma NextClosed(s: Search, p: nat, x: State, succ: Successors)
    requires x in s.table && s.table[x].open
    requires KeepsOld(s.table, x, Next(s, p, x, succ).table)
    requires forall y :: y in Next(s, p, x, succ).table && y !in s.table ==> Next(s, p, x, succ).table[y].open
    ensures Closed(Next(s, p, x, succ).table) == Closed(s.table) + {x} && x !in Closed(s.table)
  {
    var n := Next(s, p, x, succ).table;
    assert Closed(n) == Closed(Close(s.table, x));
  }

  lemma NextLayered(init: State, succ: Successors, s: Search, p: nat, x: State)
    requires Layered(init, succ, Costs(s.table), Closed(s.table), s.frontier)
    requires x in s.table && s.table[x].open && s.table[x].g == p
    requires KeepsOld(s.table, x, Next(s, p, x, succ).table)
    requires forall y :: y in Next(s, p, x, succ).table && y !in s.table ==>
               Next(s, p, x, succ).table[y] == Node(p + 1, true, false, Some(x)) &&
               (p + 1, y) in Next(s, p, x, succ).frontier && y in succ(x)
    requires forall e :: e in Next(s, p, x, succ).frontier ==>
               e in s.frontier - multiset{(p, x)} || (e.0 == p + 1 && e.1 in Next(s, p, x, succ).table && e.1 !in s.table)
    requires forall y :: y in s.table && s.table[y].open && y != x ==> (s.table[y].g, y) in s.frontier - multiset{(p, x)}
    requires s.frontier - multiset{(p, x)} <= Next(s, p, x, succ).frontier
    requires Next(s, p, x, succ).table.Keys == s.table.Keys + set c | c in succ(x)
    requires forall c :: c in succ(x) ==> Next(s, p, x, succ).table[c].g <= p + 1
    requires Closed(Next(s, p, x, succ).table) == Closed(s.table) + {x}
    ensures Layered(init, succ, Costs(Next(s, p, x, succ).table), Closed(Next(s, p, x, succ).table), Next(s, p, x, succ).frontier)
  {
    var n := Next(s, p, x, succ);
    NextSound(init, succ, s, p, x, n.table);
    NextValid(s, p, x, n);
    NextQueued(s, p, x, n);
    NextExpanded(succ, s, p, x, n.table);
  }

  lemma NextSound(init: State, succ: Successors, s: Search, p: nat, x: State, n: Table)
    requires Sound(init, succ, Costs(s.table)) && x in s.table && s.table[x].g == p
    requires KeepsOld(s.table, x, n)
    requires forall y :: y in n && y !in s.table ==> n[y].g == p + 1 && y in succ(x)
    requires n.Keys >= s.table.Keys
    ensures Sound(init, succ, Costs(n))
  {
    assert x in Reach(init, succ, p);
    forall y | y in n
      ensures y in Reach(init, succ, n[y].g)
    {
      if y !in s.table {
        ReachStep(init, succ, p, x, y);
      } else {
        assert y in Costs(s.table);
      }
    }
  }

  lemma NextValid(s: Search, p: nat, x: State, n: Search)
    requires KeepsOld(s.table, x, n.table)
    requires Valid(Costs(s.table), s.frontier) && p == s.table[x].g
    requires forall e :: e in n.frontier ==>
               e in s.frontier - multiset{(p, x)} || (e.0 == p + 1 && e.1 in n.table && e.1 !in s.table && n.table[e.1].g == p + 1)
    ensures Valid(Costs(n.table), n.frontier)
  {
    forall e | e in n.frontier
      ensures e.1 in n.table && e.0 >= n.table[e.1].g
    {
      if e in s.frontier - multiset{(p, x)} {
        assert e in s.frontier;
      }
    }
  }

  lemma NextQueued(s: Search, p: nat, x: State, n: Search)
    requires KeepsOld(s.table, x, n.table)
    requires forall y :: y in n.table && y !in s.table ==> (n.table[y].g, y) in n.frontier
    requires forall y :: y in s.table && s.table[y].open && y != x ==> (s.table[y].g, y) in s.frontier - multiset{(p, x)}
    requires s.frontier - multiset{(p, x)} <= n.frontier
    ensures Queued(Costs(n.table), Closed(n.table), n.frontier)
  {
    forall y | y in n.table && n.table[y].open
      ensures (n.table[y].g, y) in n.frontier
    {
      if y in s.table {
        assert (s.table[y].g, y) in s.frontier - multiset{(p, x)};
      }
    }
  }

  lemma NextExpanded(succ: Successors, s: Search, p: nat, x: State, n: Table)
    requires ClosedExpanded(succ, Costs(s.table), Closed(s.table)) && x in s.table && s.table[x].g == p
    requires KeepsOld(s.table, x, n)
    requires n.Keys == s.table.Keys + set c | c in succ(x)
    requires forall c :: c in succ(x) ==> n[c].g <= p + 1
    requires Closed(n) == Closed(s.table) + {x}
    ensures ClosedExpanded(succ, Costs(n), Closed(n))
  {
    forall z, c | z in Closed(n) && c in succ(z)
      ensures c in n && n[c].g <= n[z].g + 1
    {
      if z != x {
        assert z in Closed(s.table);
        assert c in Costs(s.table);
      }
    }
  }

  lemma NextExact(init: State, succ: Successors, length: int, s: Search, p: nat, x: State)
    requires Exact(init, succ, length, s.table)
    requires x in s.table && AtDistance(init, succ, x, p) && s.table[x].g == p && p <= length
    requires KeepsOld(s.table, x, Next(s, p, x, succ).table)
    requires forall y :: y in Next(s, p, x, succ).table && y !in s.table ==> Next(s, p, x, succ).table[y].open
    ensures Exact(init, succ, length, Next(s, p, x, succ).table)
  {
  }

  lemma NextParents(init: State, succ: Successors, s: Search, p: nat, x: State)
    requires Parents(init, succ, s.table) && init in s.table
    requires x in s.table && s.table[x].g == p
    requires KeepsOld(s.table, x, Next(s, p, x, succ).table)
    requires forall y :: y in Next(s, p, x, succ).table && y !in s.table ==>
               Next(s, p, x, succ).table[y] == Node(p + 1, true, false, Some(x)) && y in succ(x)
    ensures Parents(init, succ, Next(s, p, x, succ).table)
  {
    var n := Next(s, p, x, succ).table;
    forall y | y in n
      ensures !n[y].reopen
      ensures y == init ==> n[y].parent == None
      ensures y != init ==> n[y].parent.Some? && n[y].parent.value in n && !n[n[y].parent.value].open &&
                            y in succ(n[y].parent.value) && n[y].g == n[n[y].parent.value].g + 1
    {
      if y in s.table && y != init {
        var q := s.table[y].parent.value;
        assert n[q] == Close(s.table, x)[q];
      }
    }
  }

  lemma NextLogged(s: Search, yielded: seq<State>, length: int, includeNonleaf: bool, last: nat,
                   p: nat, x: State, succ: Successors)
    requires Logged(s.table, yielded, length, includeNonleaf, last)
    requires x in s.table && s.table[x].open && s.table[x].g == p && last <= p
    requires KeepsOld(s.table, x, Next(s, p, x, succ).table)
    requires forall y :: y in Next(s, p, x, succ).table && y !in s.table ==> Next(s, p, x, succ).table[y].open
    ensures Logged(Next(s, p, x, succ).table, Log(yielded, p, x, length, includeNonleaf), length, includeNonleaf, p)
  {
    var n := Next(s, p, x, succ).table;
    var y' := Log(yielded, p, x, length, includeNonleaf);
    assert x !in yielded;
    forall i | 0 <= i < |yielded|
      ensures n[yielded[i]] == s.table[yielded[i]]
    {
      assert yielded[i] != x;
    }
  }

  /** When every frontier entry is beyond the cut-off, every state the
      policy wants was yielded. */
  lemma Complete(init: State, succ: Successors, length: int, includeNonleaf: bool,
                 s: Search, last: nat, yielded: seq<State>, m: int)
    requires Inv(init, succ, length, includeNonleaf, s, last, yielded)
    requires AllAtLeast(s.frontier, m) && m > length
    ensures forall x, d: nat :: AtDistance(init, succ, x, d) && Wanted(d, length, includeNonleaf) ==> x in yielded
  {
    if length >= 0 {
      ReachClosed(init, succ, Costs(s.table), Closed(s.table), s.frontier, m, length);
      forall x, d: nat | AtDistance(init, succ, x, d) && Wanted(d, length, includeNonleaf)
        ensures x in yielded
      {
        ReachMonotone(init, succ, d, length);
        AtDistanceUnique(init, succ, x, d, s.table[x].g);
      }
    }
  }

  // ------------------------------------------------------------ the search

  /** The search made progress: it closed one more state of the bound, or
      closed nothing and dropped a frontier entry. */
  ghost predicate Progress(bound: set<State>, s: Search, s': Search)
  {
    |bound - Closed(s'.table)| < |bound - Closed(s.table)| ||
    (Closed(s'.table) == Closed(s.table) && |s'.frontier| < |s.frontier|)
  }

  lemma PopEntry(s: Search, e: Entry)
    requires Valid(Costs(s.table), s.frontier) && IsMin(s.frontier, e)
    ensures e.1 in s.table && AllAtLeast(s.frontier, e.0)
  {
  }

  /** One iteration of the `while not open_list.empty()` loop: pop an entry
      of least priority; skip it when its node is already closed; stop when
      its cost exceeds `length`; otherwise close the node, yield it if the
      policy wants its cost, and expand it. */
  method Pop(init: State, length: int, succ: Successors, includeNonleaf: bool,
             s: Search, last: nat, yielded: seq<State>)
    returns (s': Search, last': nat, yielded': seq<State>, stop: bool, cut: Option<State>)
    requires Inv(init, succ, length, includeNonleaf, s, last, yielded)
    requires Closed(s.table) <= Bound(init, succ, length) && s.frontier != multiset{}
    ensures stop ==> yielded' == yielded && s'.table == s.table
    ensures stop <==> cut.Some?
    ensures stop ==> cut.value in s.table && s.table[cut.value].open && s.table[cut.value].g > length
    ensures stop ==> AtDistance(init, succ, cut.value, s.table[cut.value].g)
    ensures stop ==> forall x, d: nat :: AtDistance(init, succ, x, d) && Wanted(d, length, includeNonleaf) ==> x in yielded
    ensures !stop ==> Closed(s'.table) <= Bound(init, succ, length) && Progress(Bound(init, succ, length), s, s')
    ensures s.table.Keys <= s'.table.Keys && forall y :: y in s.table ==> s'.table[y].g <= s.table[y].g
    ensures Closed(s'.table) == Closed(s.table) ==> s'.table == s.table && yielded' == yielded
    ensures yielded' == yielded || (|yielded'| == |yielded| + 1 && yielded'[..|yielded|] == yielded &&
                                    yielded'[|yielded|] in Closed(s'.table) - Closed(s.table))
    ensures Inv(init, succ, length, includeNonleaf, s', last', yielded')
  {
    ghost var e0 := MinExists(s.frontier);
    var e :| IsMin(s.frontier, e);
    var (p, x) := e;
    PopEntry(s, e);
    if !s.table[x].open {
      StaleStep(init, succ, length, includeNonleaf, s, last, yielded, e);
      assert |s.frontier - multiset{e}| < |s.frontier|;
      return Search(s.table, s.frontier - multiset{e}), last, yielded, false, None;
    } else if p > length {
      PopFacts(init, succ, length, includeNonleaf, s, last, yielded, p, x);
      Complete(init, succ, length, includeNonleaf, s, last, yielded, p);
      return s, last, yielded, true, Some(x);
    } else {
      OpenStep(init, succ, length, includeNonleaf, s, last, yielded, p, x);
      PopFacts(init, succ, length, includeNonleaf, s, last, yielded, p, x);
      OpenEffects(s, p, x, succ, yielded, length, includeNonleaf);
      ReachMonotone(init, succ, p, if length >= 0 then length else 0);
      Shrink(Bound(init, succ, length), Closed(s.table), x);
      return Next(s, p, x, succ), p, Log(yielded, p, x, length, includeNonleaf), false, None;
    }
  }

  /** `dijkstra(init_c, length, successor_fn, include_nonleaf)`: the states
      it yields, in order, and the close table when it stops (with the state
      popped beyond the cut-off marked closed, as the source closes it before
      the test). The yields are exactly the states whose breadth-first
      distance the policy wants, each once, in nondecreasing distance; every
      closed state is recorded at its exact distance; the close table records
      the start at 0 and every other state with a parent one step closer, and
      reopening never happens. */
  method Dijkstra(init: State, length: int, succ: Successors, includeNonleaf: bool)
    returns (yielded: seq<State>, table: Table)
    ensures forall i :: 0 <= i < |yielded| ==>
              yielded[i] in table && AtDistance(init, succ, yielded[i], table[yielded[i]].g) &&
              Wanted(table[yielded[i]].g, length, includeNonleaf)
    ensures forall x, d: nat :: AtDistance(init, succ, x, d) && Wanted(d, length, includeNonleaf) ==> x in yielded
    ensures Distinct(yielded)
    ensures forall i, j :: 0 <= i < j < |yielded| ==> table[yielded[i]].g <= table[yielded[j]].g
    ensures init in table && table[init].g == 0 && table[init].parent == None
    ensures Parents(init, succ, table)
    ensures Settled(init, succ, table)
  {
    var s := Start(init);
    var last: nat := 0;
    yielded := [];
    StartInv(init, succ, length, includeNonleaf);
    ghost var bound := Bound(init, succ, length);
    var stop := false;
    var cut: Option<State> := None;
    while s.frontier != multiset{} && !stop
      invariant Inv(init, succ, length, includeNonleaf, s, last, yielded)
      invariant Closed(s.table) <= bound
      invariant stop ==> forall x, d: nat :: AtDistance(init, succ, x, d) && Wanted(d, length, includeNonleaf) ==> x in yielded
      invariant stop ==> cut.Some? && cut.value in s.table
      invariant stop ==> AtDistance(init, succ, cut.value, s.table[cut.value].g)
      decreases !stop, |bound - Closed(s.table)|, |s.frontier|
    {
      s, last, yielded, stop, cut := Pop(init, length, succ, includeNonleaf, s, last, yielded);
    }
    if !stop {
      Complete(init, succ, length, includeNonleaf, s, last, yielded, length + 1);
    }
    Finish(init, succ, length, includeNonleaf, s, last, yielded);
    if stop {
      ParentsClose(init, succ, s.table, cut.value);
      SettledClose(init, succ, s.table, cut.value);
      return yielded, Close(s.table, cut.value);
    }
    return yielded, s.table;
  }

  /** Every closed state is recorded at its exact breadth-first distance. */
  ghost predicate Settled(init: State, succ: Successors, t: Table)
  {
    forall x :: x in t && !t[x].open ==> AtDistance(init, succ, x, t[x].g)
  }

  /** Closing a state recorded at its exact distance keeps every closed
      state at its exact distance. */
  lemma SettledClose(init: State, succ: Successors, t: Table, x: State)
    requires x in t && Settled(init, succ, t) && AtDistance(init, succ, x, t[x].g)
    ensures Settled(init, succ, Close(t, x))
  {
    var n := Close(t, x);
    forall y | y in n && !n[y].open
      ensures AtDistance(init, succ, y, n[y].g)
    {
      if y != x {
        assert n[y] == t[y];
      }
    }
  }

  /** Marking one more state closed keeps every parent a closed
      predecessor. */
  lemma ParentsClose(init: State, succ: Successors, t: Table, x: State)
    requires x in t && Parents(init, succ, t)
    ensures Parents(init, succ, Close(t, x))
  {
    var n := Close(t, x);
    forall y | y in n
      ensures n[y].parent.Some? ==> n[y].parent.value in n && !n[n[y].parent.value].open
    {
    }
  }

  /** What the invariant says about the yields and the table. */
  lemma Finish(init: State, succ: Successors, length: int, includeNonleaf: bool,
               s: Search, last: nat, yielded: seq<State>)
    requires Inv(init, succ, length, includeNonleaf, s, last, yielded)
    ensures forall i :: 0 <= i < |yielded| ==>
              yielded[i] in s.table && AtDistance(init, succ, yielded[i], s.table[yielded[i]].g) &&
              Wanted(s.table[yielded[i]].g, length, includeNonleaf)
    ensures init in s.table && s.table[init].g == 0 && s.table[init].parent == None
  {
    forall i | 0 <= i < |yielded|
      ensures Wanted(s.table[yielded[i]].g, length, includeNonleaf)
    {
      assert yielded[i] in yielded;
    }
  }
}

=== FILE: uniformcost_noreopen.dfy ===
/** `dijkstra` of problem-instances/generate-dijkstra.py: the older
    uniform-cost search. Its close table holds only `{g, open}`; a popped
    entry is checked against the cut-off before anything is closed, there is
    no check for stale entries, a closed successor is skipped, and only
    states at cost exactly `length` are yielded. */
module UniformCostNoReopen {

  import opened StateSpace
  import opened Frontier

  datatype Node = Node(g: nat, open: bool)

  type Table = map<State, Node>

  datatype Search = Search(table: Table, frontier: multiset<Entry>)

  // `Costs` and `Closed` mirror those of `UniformCost`, whose table holds a
  // different node type (with reopen flag and parent), so they cannot be shared.

  function Costs(t: Table): (r: map<State, nat>)
    ensures r.Keys == t.Keys
    ensures forall s :: s in t ==> r[s] == t[s].g
  {
    map s | s in t :: t[s].g
  }

  function Closed(t: Table): (r: set<State>)
    ensures forall s :: s in r <==> s in t && !t[s].open
  {
    set s | s in t && !t[s].open
  }

  /** The initial state (normalised to a tuple, which a `seq` already is)
      recorded at cost 0 and open, queued at priority 0. */
  function Start(init: State): (r: Search)
    ensures r.table.Keys == {init} && r.frontier == multiset{(0, init)}
    ensures r.table[init] == Node(0, true)
  {
    Search(map[init := Node(0, true)], multiset{(0, init)})
  }

  /** One successor `c` offered at cost `gnew`: skipped when closed, lowered
      and re-queued when open at a strictly higher cost, inserted when new. */
  function Relax(s: Search, gnew: nat, c: State): (r: Search)
    ensures r.table.Keys == s.table.Keys + {c}
    ensures forall x :: x in s.table ==> r.table[x].g <= s.table[x].g
    ensures forall x :: x in s.table && x != c ==> r.table[x] == s.table[x]
    ensures c in s.table && !s.table[c].open ==> r == s
    ensures forall x :: x in s.table && !s.table[x].open ==> r.table[x] == s.table[x]
    ensures c in s.table && s.table[c].g <= gnew ==> r == s
    ensures c in s.table && s.table[c].open && gnew < s.table[c].g ==>
              r.table[c] == Node(gnew, true) && r.frontier == s.frontier + multiset{(gnew, c)}
    ensures c !in s.table ==> r.table[c] == Node(gnew, true) && r.frontier == s.frontier + multiset{(gnew, c)}
    ensures s.frontier <= r.frontier
  {
    if c in s.table then
      if !s.table[c].open then s
      else if gnew < s.table[c].g then
        Search(s.table[c := Node(gnew, true)], s.frontier + multiset{(gnew, c)})
      else s
    else
      Search(s.table[c := Node(gnew, true)], s.frontier + multiset{(gnew, c)})
  }

  /** The `for succ in successor_fn(current)` loop. Closed nodes are never
      touched. */
  function Expand(s: Search, gnew: nat, sucs: seq<State>): (r: Search)
    ensures r.table.Keys == s.table.Keys + set c | c in sucs
    ensures forall x :: x in s.table ==> r.table[x].g <= s.table[x].g
    ensures forall x :: x in s.table && (x !in sucs || !s.table[x].open) ==> r.table[x] == s.table[x]
    ensures s.frontier <= r.frontier
    decreases |sucs|
  {
    if sucs == [] then s
    else Expand(Relax(s, gnew, sucs[0]), gnew, sucs[1..])
  }

  /** When no recorded cost exceeds `gnew` and every entry names a recorded
      state, expanding only inserts: each new state once, open at `gnew`,
      with a single frontier entry. */
  lemma {:induction false} ExpandInserts(s: Search, gnew: nat, sucs: seq<State>)
    requires forall x :: x in s.table ==> s.table[x].g <= gnew
    requires forall e :: e in s.frontier ==> e.1 in s.table
    ensures forall x :: x in s.table ==> Expand(s, gnew, sucs).table[x] == s.table[x]
    ensures forall x :: x in Expand(s, gnew, sucs).table && x !in s.table ==>
              Expand(s, gnew, sucs).table[x] == Node(gnew, true) && x in sucs
    ensures forall e :: e in Expand(s, gnew, sucs).frontier ==>
              (e in s.frontier && Expand(s, gnew, sucs).frontier[e] == s.frontier[e]) ||
              (e.0 == gnew && e.1 in Expand(s, gnew, sucs).table && e.1 !in s.table && Expand(s, gnew, sucs).frontier[e] == 1)
    ensures forall x :: x in Expand(s, gnew, sucs).table && x !in s.table ==> (gnew, x) in Expand(s, gnew, sucs).frontier
    decreases |sucs|
  {
    if sucs != [] {
      var s1 := Relax(s, gnew, sucs[0]);
      ExpandInserts(s1, gnew, sucs[1..]);
      var r := Expand(s, gnew, sucs);
      assert r == Expand(s1, gnew, sucs[1..]);
      forall x | x in r.table && x !in s.table
        ensures x in sucs
      {
        if x !in s1.table {
          assert x in sucs[1..];
        }
      }
      forall e | e in r.frontier
        ensures (e in s.frontier && r.frontier[e] == s.frontier[e]) ||
                (e.0 == gnew && e.1 in r.table && e.1 !in s.table && r.frontier[e] == 1)
      {
        if e in s1.frontier && r.frontier[e] == s1.frontier[e] && e !in s.frontier {
          assert e == (gnew, sucs[0]);
        }
      }
    }
  }

  function Close(t: Table, x: State): (r: Table)
    requires x in t
    ensures r.Keys == t.Keys
    ensures Closed(r) == Closed(t) + {x}
    ensures forall y :: y in t ==> r[y].g == t[y].g
    ensures forall y :: y in t && y != x ==> r[y] == t[y]
  {
    t[x := t[x].(open := false)]
  }

  predicate KeepsOld(t: Table, x: State, n: Table)
  {
    x in t && forall y :: y in t ==> y in n && n[y] == Close(t, x)[y]
  }

  /** After popping `(p, x)` at `p <= length`: `x` closed, its successors
      offered at `p + 1`. */
  function Next(s: Search, p: nat, x: State, succ: Successors): Search
    requires x in s.table
  {
    Expand(Search(Close(s.table, x), s.frontier - multiset{(p, x)}), p + 1, succ(x))
  }

  /** The states yielded after popping `(p, x)`: `x` iff `p == length`. */
  function Log(yielded: seq<State>, p: nat, x: State, length: int): seq<State>
  {
    if p == length then yielded + [x] else yielded
  }

  // ------------------------------------------------------- loop invariant

  /** Every frontier entry belongs to an open state at its recorded cost and
      occurs once: no entry is ever stale. */
  predicate Single(t: Table, f: multiset<Entry>)
  {
    forall e :: e in f ==> e.1 in t && t[e.1].open && e.0 == t[e.1].g && f[e] == 1
  }

  ghost predicate Exact(init: State, succ: Successors, length: int, t: Table)
  {
    forall x :: x in t && !t[x].open ==> AtDistance(init, succ, x, t[x].g) && t[x].g <= length
  }

  predicate Monotone(t: Table, f: multiset<Entry>, last: nat)
  {
    AllAtLeast(f, last) && forall x :: x in t ==> t[x].g <= last + 1
  }

  /** The yielded states are distinct closed states, and a closed state was
      yielded iff its cost is `length`. */
  predicate Logged(t: Table, yielded: seq<State>, length: int)
  {
    Distinct(yielded) &&
    (forall i :: 0 <= i < |yielded| ==> yielded[i] in t && !t[yielded[i]].open) &&
    (forall x :: x in t && !t[x].open ==> (x in yielded <==> t[x].g == length))
  }

  ghost predicate Inv(init: State, succ: Successors, length: int, s: Search, last: nat, yielded: seq<State>)
  {
    Layered(init, succ, Costs(s.table), Closed(s.table), s.frontier) &&
    Single(s.table, s.frontier) &&
    Exact(init, succ, length, s.table) &&
    Monotone(s.table, s.frontier, last) &&
    Logged(s.table, yielded, length)
  }

  lemma StartInv(init: State, succ: Successors, length: int)
    ensures Inv(init, succ, length, Start(init), 0, [])
  {
    var s := Start(init);
    assert Costs(s.table) == map[init := 0];
    assert Closed(s.table) == {};
  }

  /** The popped entry is an open state at its recorded cost, which is its
      exact distance. */
  lemma PopFacts(init: State, succ: Successors, length: int, s: Search, last: nat, yielded: seq<State>, e: Entry)
    requires Inv(init, succ, length, s, last, yielded)
    requires IsMin(s.frontier, e)
    ensures e.1 in s.table && s.table[e.1].open && s.table[e.1].g == e.0
    ensures AtDistance(init, succ, e.1, e.0) && last <= e.0
    ensures AllAtLeast(s.frontier, e.0)
    ensures forall y :: y in s.table ==> s.table[y].g <= e.0 + 1
  {
    PopIsExact(init, succ, Costs(s.table), Closed(s.table), s.frontier, e);
  }

  lemma NextInserts(s: Search, p: nat, x: State, succ: Successors)
    requires x in s.table && forall y :: y in s.table ==> s.table[y].g <= p + 1
    requires forall e :: e in s.frontier ==> e.1 in s.table
    ensures KeepsOld(s.table, x, Next(s, p, x, succ).table)
    ensures forall y :: y in Next(s, p, x, succ).table && y !in s.table ==>
              Next(s, p, x, succ).table[y] == Node(p + 1, true) && y in succ(x) &&
              (p + 1, y) in Next(s, p, x, succ).frontier
    ensures forall e :: e in Next(s, p, x, succ).frontier ==>
              (e in s.frontier - multiset{(p, x)} && Next(s, p, x, succ).frontier[e] == (s.frontier - multiset{(p, x)})[e]) ||
              (e.0 == p + 1 && e.1 in Next(s, p, x, succ).table && e.1 !in s.table && Next(s, p, x, succ).frontier[e] == 1)
    ensures s.frontier - multiset{(p, x)} <= Next(s, p, x, succ).frontier
    ensures Next(s, p, x, succ).table.Keys == s.table.Keys + set c | c in succ(x)
  {
    var s1 := Search(Close(s.table, x), s.frontier - multiset{(p, x)});
    assert forall e :: e in s1.frontier ==> e in s.frontier;
    ExpandInserts(s1, p + 1, succ(x));
  }

  /** What one pop below the cut-off does to the table and the yields:
      nothing recorded is lost, no recorded cost or closed node changes, and
      at most `x` is yielded. */
  lemma OpenEffects(s: Search, p: nat, x: State, succ: Successors, yielded: seq<State>, length: int)
    requires x in s.table && forall y :: y in s.table ==> s.table[y].g <= p + 1
    requires forall e :: e in s.frontier ==> e.1 in s.table
    ensures s.table.Keys <= Next(s, p, x, succ).table.Keys
    ensures forall y :: y in s.table ==> Next(s, p, x, succ).table[y].g == s.table[y].g
    ensures forall y :: y in s.table && !s.table[y].open ==> Next(s, p, x, succ).table[y] == s.table[y]
    ensures Log(yielded, p, x, length) == yielded ||
            (|Log(yielded, p, x, length)| == |yielded| + 1 &&
             Log(yielded, p, x, length)[..|yielded|] == yielded && Log(yielded, p, x, length)[|yielded|] == x)
  {
    NextInserts(s, p, x, succ);
  }

  /** One pop at `p <= length` keeps the invariant and closes exactly `x`. */
  lemma OpenStep(init: State, succ: Successors, length: int, s: Search, last: nat, yielded: seq<State>, p: nat, x: State)
    requires Inv(init, succ, length, s, last, yielded)
    requires IsMin(s.frontier, (p, x)) && p <= length
    ensures x in s.table
    ensures Inv(init, succ, length, Next(s, p, x, succ), p, Log(yielded, p, x, length))
    ensures Closed(Next(s, p, x, succ).table) == Closed(s.table) + {x} && x !in Closed(s.table)
    ensures AtDistance(init, succ, x, p)
  {
    PopFacts(init, succ, length, s, last, yielded, (p, x));
    NextLayered(init, succ, length, s, last, yielded, p, x);
    NextRest(init, succ, length, s, last, yielded, p, x);
  }

  /** The frontier part of the invariant after the pop. */
  lemma NextLayered(init: State, succ: Successors, length: int, s: Search, last: nat, yielded: seq<State>, p: nat, x: State)
    requires Inv(init, succ, length, s, last, yielded)
    requires (p, x) in s.frontier
    requires x in s.table && s.table[x].open && s.table[x].g == p
    requires forall y :: y in s.table ==> s.table[y].g <= p + 1
    ensures Layered(init, succ, Costs(Next(s, p, x, succ).table), Closed(Next(s, p, x, succ).table), Next(s, p, x, succ).frontier)
    ensures Closed(Next(s, p, x, succ).table) == Closed(s.table) + {x} && x !in Closed(s.table)
  {
    NextInserts(s, p, x, succ);
    var n := Next(s, p, x, succ);
    NextClosed(s, p, x, n.table);
    NextSound(init, succ, s, p, x, n.table);
    NextQueued(s, p, x, n);
    NextSingle(s, p, x, n);
    NextExpanded(succ, s, p, x, n.table);
  }

  /** The rest of the invariant after the pop. */
  lemma NextRest(init: State, succ: Successors, length: int, s: Search, last: nat, yielded: seq<State>, p: nat, x: State)
    requires Inv(init, succ, length, s, last, yielded)
    requires (p, x) in s.frontier && AllAtLeast(s.frontier, p) && p <= length
    requires x in s.table && s.table[x].open && s.table[x].g == p
    requires AtDistance(init, succ, x, p)
    requires forall y :: y in s.table ==> s.table[y].g <= p + 1
    ensures Single(Next(s, p, x, succ).table, Next(s, p, x, succ).frontier)
    ensures Exact(init, succ, length, Next(s, p, x, succ).table)
    ensures Monotone(Next(s, p, x, succ).table, Next(s, p, x, succ).frontier, p)
    ensures Logged(Next(s, p, x, succ).table, Log(yielded, p, x, length), length)
  {
    NextInserts(s, p, x, succ);
    var n := Next(s, p, x, succ);
    NextSingle(s, p, x, n);
    NextExact(init, succ, length, s, p, x, n.table);
    NextLogged(s, yielded, length, p, x, n.table);
    NextMonotone(s, p, x, n);
  }

  lemma NextExact(init: State, succ: Successors, length: int, s: Search, p: nat, x: State, n: Table)
    requires Exact(init, succ, length, s.table)
    requires KeepsOld(s.table, x, n) && AtDistance(init, succ, x, p) && s.table[x].g == p && p <= length
    requires forall y :: y in n && y !in s.table ==> n[y].open
    ensures Exact(init, succ, length, n)
  {
  }

  lemma NextMonotone(s: Search, p: nat, x: State, n: Search)
    requires AllAtLeast(s.frontier, p) && forall y :: y in s.table ==> s.table[y].g <= p + 1
    requires KeepsOld(s.table, x, n.table)
    requires forall y :: y in n.table && y !in s.table ==> n.table[y].g == p + 1
    requires forall e :: e in n.frontier ==> e in s.frontier - multiset{(p, x)} || e.0 == p + 1
    ensures Monotone(n.table, n.frontier, p)
  {
    forall e | e in n.frontier
      ensures e.0 >= p
    {
      if e in s.frontier - multiset{(p, x)} {
        assert e in s.frontier;
      }
    }
  }

  lemma NextClosed(s: Search, p: nat, x: State, n: Table)
    requires KeepsOld(s.table, x, n) && s.table[x].open
    requires forall y :: y in n && y !in s.table ==> n[y].open
    ensures Closed(n) == Closed(s.table) + {x} && x !in Closed(s.table)
  {
    assert Closed(n) == Closed(Close(s.table, x));
  }

  lemma NextSound(init: State, succ: Successors, s: Search, p: nat, x: State, n: Table)
    requires Sound(init, succ, Costs(s.table)) && x in s.table && s.table[x].g == p
    requires KeepsOld(s.table, x, n)
    requires forall y :: y in n && y !in s.table ==> n[y].g == p + 1 && y in succ(x)
    ensures Sound(init, succ, Costs(n))
  {
    assert x in Reach(init, succ, p);
    forall y | y in n
      ensures y in Reach(init, succ, n[y].g)
    {
      if y !in s.table {
        ReachStep(init, succ, p, x, y);
      } else {
        assert y in Costs(s.table);
      }
    }
  }

  lemma NextQueued(s: Search, p: nat, x: State, n: Search)
    requires Queued(Costs(s.table), Closed(s.table), s.frontier)
    requires KeepsOld(s.table, x, n.table)
    requires forall y :: y in n.table && y !in s.table ==> (n.table[y].g, y) in n.frontier
    requires s.frontier - multiset{(p, x)} <= n.frontier
    ensures Queued(Costs(n.table), Closed(n.table), n.frontier)
  {
    forall y | y in n.table && n.table[y].open
      ensures (n.table[y].g, y) in n.frontier
    {
      if y in s.table {
        assert y != x && y !in Closed(s.table);
        assert (Costs(s.table)[y], y) in s.frontier;
        assert (s.table[y].g, y) in s.frontier - multiset{(p, x)};
      }
    }
  }

  /** After the pop every entry still belongs to an open state once; the
      popped one, which occurred once, is gone. */
  lemma NextSingle(s: Search, p: nat, x: State, n: Search)
    requires Single(s.table, s.frontier) && (p, x) in s.frontier
    requires KeepsOld(s.table, x, n.table)
    requires forall y :: y in n.table && y !in s.table ==> n.table[y] == Node(p + 1, true)
    requires forall e :: e in n.frontier ==>
               (e in s.frontier - multiset{(p, x)} && n.frontier[e] == (s.frontier - multiset{(p, x)})[e]) ||
               (e.0 == p + 1 && e.1 in n.table && e.1 !in s.table && n.frontier[e] == 1)
    ensures Single(n.table, n.frontier) && Valid(Costs(n.table), n.frontier)
  {
    forall e | e in n.frontier
      ensures e.1 in n.table && n.table[e.1].open && e.0 == n.table[e.1].g && n.frontier[e] == 1
    {
      if e in s.frontier - multiset{(p, x)} && n.frontier[e] == (s.frontier - multiset{(p, x)})[e] {
        assert e in s.frontier && s.frontier[e] == 1;
        assert e != (p, x);
      }
    }
  }

  lemma NextExpanded(succ: Successors, s: Search, p: nat, x: State, n: Table)
    requires ClosedExpanded(succ, Costs(s.table), Closed(s.table)) && x in s.table && s.table[x].g == p
    requires forall y :: y in s.table ==> s.table[y].g <= p + 1
    requires KeepsOld(s.table, x, n)
    requires n.Keys == s.table.Keys + set c | c in succ(x)
    requires forall y :: y in n && y !in s.table ==> n[y].g == p + 1
    requires Closed(n) == Closed(s.table) + {x}
    ensures ClosedExpanded(succ, Costs(n), Closed(n))
  {
    forall z, c | z in Closed(n) && c in succ(z)
      ensures c in n && n[c].g <= n[z].g + 1
    {
      if z != x {
        assert z in Closed(s.table);
        assert c in Costs(s.table);
      }
    }
  }

  lemma NextLogged(s: Search, yielded: seq<State>, length: int, p: nat, x: State, n: Table)
    requires Logged(s.table, yielded, length)
    requires KeepsOld(s.table, x, n) && s.table[x].open && s.table[x].g == p
    requires forall y :: y in n && y !in s.table ==> n[y].open
    ensures Logged(n, Log(yielded, p, x, length), length)
  {
    assert x !in yielded;
    forall i | 0 <= i < |yielded|
      ensures n[yielded[i]] == s.table[yielded[i]]
    {
      assert yielded[i] != x;
    }
  }

  /** When every frontier entry is beyond `length`, every state at distance
      `length` was yielded. */
  lemma Complete(init: State, succ: Successors, length: int, s: Search, last: nat, yielded: seq<State>, m: int)
    requires Inv(init, succ, length, s, last, yielded)
    requires AllAtLeast(s.frontier, m) && m > length
    ensures length >= 0 ==> forall x :: AtDistance(init, succ, x, length) ==> x in yielded
  {
    if length >= 0 {
      ReachClosed(init, succ, Costs(s.table), Closed(s.table), s.frontier, m, length);
      forall x | AtDistance(init, succ, x, length)
        ensures x in yielded
      {
        AtDistanceUnique(init, succ, x, length, s.table[x].g);
      }
    }
  }

  // ------------------------------------------------------------ the search

  /** One iteration of the `while not open_list.empty()` loop: pop an entry
      of least priority; return at once if its cost exceeds `length`;
      otherwise yield it when its cost is `length`, close it and expand it. */
  method Pop(init: State, length: int, succ: Successors, s: Search, last: nat, yielded: seq<State>)
    returns (s': Search, last': nat, yielded': seq<State>, stop: bool)
    requires Inv(init, succ, length, s, last, yielded)
    requires Closed(s.table) <= Bound(init, succ, length) && s.frontier != multiset{}
    ensures Inv(init, succ, length, s', last', yielded')
    ensures stop ==> s' == s && yielded' == yielded
    ensures stop && length >= 0 ==> forall x :: AtDistance(init, succ, x, length) ==> x in yielded
    ensures !stop ==> Closed(s'.table) <= Bound(init, succ, length) &&
                      |Bound(init, succ, length) - Closed(s'.table)| < |Bound(init, succ, length) - Closed(s.table)|
    ensures s.table.Keys <= s'.table.Keys && forall y :: y in s.table ==> s'.table[y].g <= s.table[y].g
    ensures forall y :: y in s.table && !s.table[y].open ==> s'.table[y] == s.table[y]
    ensures yielded' == yielded || (|yielded'| == |yielded| + 1 && yielded'[..|yielded|] == yielded &&
                                    yielded'[|yielded|] in Closed(s'.table) - Closed(s.table))
  {
    ghost var e0 := MinExists(s.frontier);
    var e :| IsMin(s.frontier, e);
    var (p, x) := e;
    if p > length {
      PopFacts(init, succ, length, s, last, yielded, e);
      Complete(init, succ, length, s, last, yielded, p);
      return s, last, yielded, true;
    } else {
      OpenStep(init, succ, length, s, last, yielded, p, x);
      PopFacts(init, succ, length, s, last, yielded, e);
      OpenEffects(s, p, x, succ, yielded, length);
      ReachMonotone(init, succ, p, if length >= 0 then length else 0);
      Shrink(Bound(init, succ, length), Closed(s.table), x);
      return Next(s, p, x, succ), p, Log(yielded, p, x, length), false;
    }
  }

  /** `dijkstra(init_c, length, successor_fn)` of generate-dijkstra.py: it
      yields exactly the states at breadth-first distance `length`, each
      once. Since every frontier entry stays fresh, the missing stale check
      never matters, and the update branch for open nodes never fires. */
  method Dijkstra(init: State, length: int, succ: Successors) returns (yielded: seq<State>, table: Table)
    ensures forall x :: x in yielded <==> length >= 0 && AtDistance(init, succ, x, length)
    ensures Distinct(yielded)
    ensures init in table && table[init].g == 0
    ensures forall x :: x in table && !table[x].open ==> AtDistance(init, succ, x, table[x].g)
  {
    var s := Start(init);
    var last: nat := 0;
    yielded := [];
    StartInv(init, succ, length);
    ghost var bound := Bound(init, succ, length);
    var stop := false;
    while s.frontier != multiset{} && !stop
      invariant Inv(init, succ, length, s, last, yielded)
      invariant Closed(s.table) <= bound
      invariant stop && length >= 0 ==> forall x :: AtDistance(init, succ, x, length) ==> x in yielded
      decreases !stop, |bound - Closed(s.table)|
    {
      s, last, yielded, stop := Pop(init, length, succ, s, last, yielded);
    }
    if !stop {
      Complete(init, succ, length, s, last, yielded, length + 1);
    }
    Finish(init, succ, length, s, last, yielded);
    return yielded, s.table;
  }

  lemma Finish(init: State, succ: Successors, length: int, s: Search, last: nat, yielded: seq<State>)
    requires Inv(init, succ, length, s, last, yielded)
    ensures forall x :: x in yielded ==> length >= 0 && AtDistance(init, succ, x, length)
    ensures init in s.table && s.table[init].g == 0
  {
    forall x | x in yielded
      ensures length >= 0 && AtDistance(init, succ, x, length)
    {
      var i :| 0 <= i < |yielded| && yielded[i] == x;
    }
  }
}
